=== FILE: README.md ===
# animag search plugins in Dafny

A model of the search pipeline of animag, a tool that searches torrent
indexes for anime releases and normalises every hit into an `Anime` record
(release time, title, size, magnet link, torrent link, info hash). The core
has three plugins:

- **Nyaa** (`animag/plugins/nyaa.py`), a paginated scraper of the nyaa.si
  listing. It requests result pages 1, 2, 3, … and stops at the first page
  whose table body is missing or holds only `"\n"`. Every row of every
  other page becomes an `Anime`. A malformed row aborts the whole search
  with a `SearchParserError` naming the page.
- **NyaaRss** (`animag/plugins/nyaa_rss.py`), a single fetch of the RSS
  feed. A feed with no items gives `None`. Otherwise every item becomes an
  `Anime` without a magnet link. A missing element, or a `pubDate` off the
  pattern, aborts with a `SearchParserError`.
- **Aggregator** (`animag/plugins/aggregator.py`), which runs every
  registered plugin's `search` concurrently. A plugin that raises an
  `Exception` counts as having returned `[]`. Each truthy result is
  appended to one list as its future completes.

Files and modules:

- `types.dfy` (`Types`): `Option`/`Result`, `Anime`, the errors and
  warnings, and `MapAll`. `MapAll` is the shape of every extraction loop
  whose exception discards the partial list.
- `query.dfy` (`Query`): query parameters as an insertion-ordered list of
  pairs, the way a Python dict behaves. Also `{'q': …, 'c': "1_0", **extras}`,
  `params['p'] = page`, and the request record.
- `timefmt.dfy` (`TimeFormat`): what `time.strptime` accepts for the two
  fixed patterns the plugins read, and `time.strftime` with the default output pattern
  `%Y/%m/%d %H:%M`. The patterns are `%Y-%m-%d %H:%M` for the listing and
  `%a, %d %b %Y %H:%M:%S %z` for the feed. The feed's is the date-time of
  section 5 of RFC 822 with a four-digit year (as section 5.2.14 of RFC 1123
  amends it), with the weekday and the seconds mandatory and only numeric or
  `Z` zones. It includes round trips from writing to reading.
- `nyaa.dfy` (`Nyaa`), `nyaa_rss.dfy` (`NyaaRss`), `aggregator.dfy`
  (`Aggregator`): one module per plugin.

What the model replaces:

- **The network.** It becomes a function parameter `server` from request to
  response. A response is either the parsed document or the error the fetch
  raised. HTML and XML parsing is replaced by structured inputs:
  - for the listing, rows of cells, where each cell has optional text and
    its anchors;
  - for the feed, items whose child elements are optional.
- **The completion order of the futures.** It is a parameter `order`, a
  permutation of the plugin indices. Every aggregator property holds for
  all permutations.
- **The unbounded `while True` of the listing search.** It is bounded by
  `fuel`. `OutOfFuel` stands for a search that would still be running.
- **Logged warnings.** They are returned in a `warnings` list, so that
  "only warns" can be stated.

Each search exists twice. One form is a pure function (`Nyaa.Search`,
`NyaaRss.Search`, `Aggregator.Search`). The other is a method that follows
the Python function statement by statement (`Nyaa.SearchLoop`/`Nyaa.PageLoop`,
`NyaaRss.SearchFeed`, `Aggregator.SearchAll`), and is proved equal to the
function.

## Model

| member | source | states |
|---|---|---|
| `Types.MapAll` | animag/plugins/nyaa.py:51-70 | Converting a list element by element succeeds exactly when every element converts. The values then correspond one to one, in order. Otherwise the error is that of the first element that fails. |
| `Types.MapAllFirstFailure` | animag/plugins/nyaa_rss.py:49-64 | The first failing element decides the error the whole loop raises, whatever follows it. |
| `Types.MapAllEvery` | animag/plugins/nyaa_rss.py:49-61 | When every element converts, the loop's list is exactly the converted elements, in order. |
| `Types.MapEach` | animag/plugins/nyaa.py:51-63 | The convert-and-append loop gives what `MapAll` gives, including the first failure's error. |
| `Query.Set` | animag/plugins/nyaa.py:40 | No contract; what `d[k] = v` does is stated by `Query.SetSpec`. |
| `Query.Build` | animag/plugins/nyaa.py:32 | No contract; the merged parameters are stated by `Query.BuildLookup` and `Query.BuildKeys`. |
| `Query.PageParams` | animag/plugins/nyaa.py:40 | No contract; the page parameters are stated by `Query.PageParamsLookup` and `Query.PageOverwrite`. |
| `Query.SetSpec` | animag/plugins/nyaa.py:40 | `d[k] = v` binds `k` to `v` and leaves every other key's value alone. A present key keeps its place; a new key is appended. |
| `Query.BuildLookup` | animag/plugins/nyaa.py:32 | The base parameters bind `q` to the keyword and `c` to `"1_0"`. The extra options override both and add their own keys. No other key is present. |
| `Query.BuildKeys` | animag/plugins/nyaa_rss.py:34 | The encoded order is `q`, then `c`, then the extra keys other than those two, in the caller's order. No key repeats. |
| `Query.PageParamsLookup` | animag/plugins/nyaa.py:40 | After `params['p'] = page` the page key holds the current page, even if the caller passed `p`. Every other key keeps its base value. |
| `Query.PageOverwrite` | animag/plugins/nyaa.py:40-41 | Reassigning `p` in the dict left by the previous page gives the same parameters as assigning it once in the base parameters. |
| `TimeFormat.ParseClock` | animag/plugins/nyaa.py:55 | Whatever the listing pattern accepts is a valid calendar date-time. Examples of what it refuses: day 31 in a 30-day month, 29 February outside leap years, year 0. |
| `TimeFormat.ParseFeed` | animag/plugins/nyaa_rss.py:54 | Whatever the feed pattern accepts is a valid wall-clock date-time, with a weekday and a seconds field (at most 61). |
| `TimeFormat.ConvertListing` | animag/plugins/nyaa.py:55 | The listing conversion succeeds exactly when there is text on the listing pattern. The output, read with the default pattern, is the date-time the input denoted. |
| `TimeFormat.ConvertFeed` | animag/plugins/nyaa_rss.py:54 | The feed conversion succeeds exactly when the text is on the feed pattern. The output denotes the wall-clock date, hour and minute as written; the offset is not applied. |
| `TimeFormat.ClockRoundTrip` | animag/plugins/nyaa.py:19 | Reading back a date-time written with `%Y<sep>%m<sep>%d %H:%M` gives the same date-time, for both the listing's `-` and the default `/`. |
| `TimeFormat.FeedRoundTrip` | animag/plugins/nyaa_rss.py:54 | Reading back a feed date written with a numeric zone gives the same date-time, weekday, seconds and offset. |
| `TimeFormat.ListingToDefault` | animag/plugins/nyaa.py:55 | `YYYY-MM-DD HH:MM` becomes `YYYY/MM/DD HH:MM` with the same fields. |
| `TimeFormat.FeedToDefault` | animag/plugins/nyaa_rss.py:19 | A feed date becomes its date, hour and minute in the default pattern. Weekday, seconds and offset are dropped. |
| `Nyaa.RowRecord` | animag/plugins/nyaa.py:51-63 | A row converts exactly when it is well formed. That means five cells or more, a listing-pattern time in cell 4, an anchor in cell 1 and two anchors in cell 2. The record's fields are: time reformatted from cell 4, title from cell 1's anchor, magnet from the href of cell 2's second anchor, size from cell 3, no torrent, no hash. A row of fewer than five cells fails on the cell index. |
| `Nyaa.Visit` | animag/plugins/nyaa.py:42-49 | A failed fetch aborts with its own error, not wrapped as a parser error. A page stops the search exactly when its body is missing or equals `"\n"`. |
| `Nyaa.VisitPage` | animag/plugins/nyaa.py:51-70 | Any other page yields records exactly when every row is well formed: one record per row, in row order. Otherwise it aborts with the first malformed row's error, wrapped as a parser error naming the page. |
| `Nyaa.EmptyBodyContinues` | animag/plugins/nyaa.py:48-65 | A table body with no rows whose text is not exactly `"\n"` is not a last page: it adds no records and the loop goes on to the next page. |
| `Nyaa.Crawl` | animag/plugins/nyaa.py:37-65 | The loop never fetches more pages than the fuel allows. A finished loop fetched at least one page, and an unfinished one used all its fuel. |
| `Nyaa.CrawlStopsAt` | animag/plugins/nyaa.py:37-72 | Let n be the first page that does not continue the loop: a last page (no table body, or body text exactly `"\n"`) or an abort. Exactly the pages up to n are fetched. A last page returns the earlier pages' records in page-then-row order. An abort returns that page's error and no records. |
| `Nyaa.CrawlDone` | animag/plugins/nyaa.py:48-49 | A loop that finished stopped at the first last page or abort. Every earlier page was read without error and was not a last page. |
| `Nyaa.CrawlRunsOut` | animag/plugins/nyaa.py:37 | A loop whose every page is read without error and is not a last page, even one with no rows, never finishes within its fuel. |
| `Nyaa.Requests` | animag/plugins/nyaa.py:40-42 | After n turns of the loop, n requests have been made. |
| `Nyaa.RequestsAt` | animag/plugins/nyaa.py:65 | The k-th request asks for page k + 1, counting from 0. |
| `Nyaa.RequestAt` | animag/plugins/nyaa.py:40-41 | The k-th request, counting from 1, goes to the listing endpoint with `p = k`. Every other parameter is the base value. |
| `Nyaa.SearchRequests` | animag/plugins/nyaa.py:31-42 | Every fetch of the search goes to the listing with the search's transport options. The k-th fetch carries `p = k` and the base parameters. |
| `Nyaa.SearchStopsAt` | animag/plugins/nyaa.py:37-72 | Let page n be the first page that does not continue the loop: a last page (no table body, or body text exactly `"\n"`) or an abort. Exactly n fetches happen. A last page gives the records of pages 1 … n-1 in page-then-row order. A failed fetch gives its own error unchanged. A malformed row gives a parser error naming page n. |
| `Nyaa.SearchSucceeded` | animag/plugins/nyaa.py:48-72 | A search that returns a list stopped at a last page n. Every earlier page was read without error, and the list is their records. |
| `Nyaa.SearchRunsOut` | animag/plugins/nyaa.py:37-65 | A search whose every page is read without error and is not a last page, even one with no rows, is still running once the fuel is spent, after exactly that many fetches. |
| `Nyaa.CollectedOnlyWarns` | animag/plugins/nyaa.py:34-35 | `collected` adds the warning and changes neither the requests nor the outcome. |
| `Nyaa.Search` | animag/plugins/nyaa.py:23-72 | No contract; the functional model of the search. Its fetches are stated by `Nyaa.SearchRequests`, its outcome by `Nyaa.SearchStopsAt`, `Nyaa.SearchSucceeded` and `Nyaa.SearchRunsOut`, and its warning by `Nyaa.CollectedOnlyWarns`. |
| `Nyaa.SearchLoop` | animag/plugins/nyaa.py:23-72 | The search as written: warning, base parameters, then the page loop. It gives the same outcome and requests as the functional model. |
| `Nyaa.PageLoop` | animag/plugins/nyaa.py:37-70 | The `while True` loop, with one dict reassigned per page and records appended page by page. An exception discards them. The loop equals the functional crawl for any loop body. |
| `Nyaa.NextRequest` | animag/plugins/nyaa.py:40-42 | Reassigning the page key in the loop's dict gives the current page's parameters. Its request extends the requests so far. |
| `Nyaa.CrawlFront` | animag/plugins/nyaa.py:48-65 | One more turn of the loop: a last page returns the records so far, an abort returns its error, and rows are appended before the next page. |
| `Nyaa.ReadPage` | animag/plugins/nyaa.py:44-70 | The loop body over one response equals `Visit`. |
| `NyaaRss.ItemTime` | animag/plugins/nyaa_rss.py:53-54 | The pub date converts exactly when it is on the feed pattern, to its wall clock in the default pattern. Otherwise the cause carries the text. |
| `NyaaRss.ItemRecord` | animag/plugins/nyaa_rss.py:50-61 | An item converts exactly when all five elements are present and the pub date is on the feed pattern. The fields are: title, link as torrent, no magnet, info hash, size, and the reformatted time. The checks follow the order of the reads: a missing title, then a missing link, then a missing pub date, then a pub date off the pattern, then a missing info hash, then a missing size; the first that applies is the cause, so a bad date is reported even when a later element is also missing. |
| `NyaaRss.ReadFeed` | animag/plugins/nyaa_rss.py:42-64 | No contract; the body of the `try` for a fetched feed. Its outcome is stated by `NyaaRss.ReadFeedOutcome`. |
| `NyaaRss.Search` | animag/plugins/nyaa_rss.py:26-66 | No contract; the functional model of the search. Its request is stated by `NyaaRss.SearchRequest`, its outcome by `NyaaRss.SearchOutcome`, and its warnings by `NyaaRss.CollectedOnlyWarns` and `NyaaRss.ParserIgnoredBySearch`. |
| `NyaaRss.ReadFeedOutcome` | animag/plugins/nyaa_rss.py:44-64 | No items gives `None`, not an empty list. n complete items give n records in item order. Otherwise the first incomplete item's cause, wrapped as a feed parser error, is raised, with no partial list. |
| `NyaaRss.SearchRequest` | animag/plugins/nyaa_rss.py:34-40 | Exactly one fetch, to the feed endpoint. It carries `q`, `c` and the extra options, with overrides, and has no page key unless the caller passed one. |
| `NyaaRss.SearchOutcome` | animag/plugins/nyaa_rss.py:40-64 | A failed fetch raises its own error unchanged. A fetched feed gives what its items give. |
| `NyaaRss.ItemTimeOfStamp` | animag/plugins/nyaa_rss.py:53-61 | An item whose pub date is a feed-written stamp is stored with that stamp's wall clock in the default pattern. |
| `NyaaRss.CollectedOnlyWarns` | animag/plugins/nyaa_rss.py:36-37 | `collected` adds the warning and changes neither the request nor the outcome. |
| `NyaaRss.ParserIgnoredBySearch` | animag/plugins/nyaa_rss.py:21-24 | The parser argument changes nothing the search does. |
| `NyaaRss.SearchFeed` | animag/plugins/nyaa_rss.py:26-66 | The search as written (warning, one fetch, the item loop inside `try`) equals the functional model. |
| `Aggregator.Collect` | animag/plugins/aggregator.py:34-37 | No contract; the list after the futures complete in a given order. Its blocks are stated by `Aggregator.CollectBlock` and `Aggregator.CollectAlike`. |
| `Aggregator.Search` | animag/plugins/aggregator.py:17-39 | No contract; the functional model of the search. Its properties are stated by `Aggregator.SearchUnion`, `Aggregator.SearchEmpty`, `Aggregator.SearchBlock`, `Aggregator.SearchKeeps` and `Aggregator.SilentIsInterchangeable`. |
| `Aggregator.Contribution` | animag/plugins/aggregator.py:36-37 | A completed future adds its records. `None` and `[]` add nothing. |
| `Aggregator.Results` | animag/plugins/aggregator.py:33 | There is one future per registered plugin, in plugin order. Each holds that plugin's call with the caller's own arguments. |
| `Aggregator.PermutationInRange` | animag/plugins/aggregator.py:34 | A completion order that yields every future exactly once has one entry per plugin, each a valid index. |
| `Aggregator.SearchUnion` | animag/plugins/aggregator.py:33-37 | Whatever the completion order, the list as a multiset is the union of every plugin's records. Its length is the sum of their lengths. |
| `Aggregator.SearchEmpty` | animag/plugins/aggregator.py:23-39 | The list is empty exactly when no plugin returned a non-empty list, which includes every plugin raising. |
| `Aggregator.SearchBlock` | animag/plugins/aggregator.py:34-37 | The k-th future to complete adds its plugin's records as one contiguous block, in their own order, right after the blocks of the futures before it. |
| `Aggregator.SearchKeeps` | animag/plugins/aggregator.py:34-37 | Every list a plugin returns appears, intact and in order, as one block of the result. |
| `Aggregator.SilentIsInterchangeable` | animag/plugins/aggregator.py:26-37 | A plugin that raises, returns `None` or returns `[]` can be swapped for any other such plugin without changing the result. A failure is isolated. |
| `Aggregator.CollectAlike` | animag/plugins/aggregator.py:34-37 | Futures that contribute alike give the same list in any order. |
| `Aggregator.SearchAll` | animag/plugins/aggregator.py:17-39 | The search as written equals the functional model: submit every plugin, then extend the list as the futures complete. |

## Left out

- HTTP fetching (`get_html`, `get_content`), proxies and TLS verification. These are I/O in files that are not part of this model. The fetch is the parameter `server`; the transport options are only recorded in each request.
- HTML and XML parsing by BeautifulSoup, a foreign library. Its output is the `Page`/`Row`/`Cell`/`Anchor` and `Item` datatypes. The choice of parser backend is not modelled.
- `urlencode`'s percent-encoding. The URL is kept as the endpoint plus the ordered parameter list.
- Aggregator.Search: every plugin's call is assumed to return or raise. `Aggregator.search` sets no time-out: `as_completed` and leaving the `with ThreadPoolExecutor()` block both wait for every future. So a plugin whose `search` never returns, such as Nyaa in its `OutOfFuel` case, makes `Aggregator.search` never return, and the isolation of failing plugins covers raised `Exception`s only. An aggregator registered among its own plugins would be such a call too; the plugin list is an input, and that case is left out.
- Aggregator.RunPlugin: `Raised` stands for an `Exception` subclass only, the one `run_plugin_search` catches. A `BaseException` such as `SystemExit` or `KeyboardInterrupt` is stored on its future and re-raised by `future.result()`, so `Aggregator.search` raises. The model does not represent such exceptions.
- Thread-pool scheduling. The completion order is an arbitrary permutation parameter, and waiting for all futures is implicit in the fold.
- The `PluginImportError` built for a raising plugin. It is constructed and discarded, so nothing observable is modelled for it. Whether its constructor logs is defined in files that are not part of this model.
- Plugin registration, `BasePlugin`, and the construction of `Anime` beyond its six fields. The plugin list is an input sequence. Nyaa's records leave torrent and hash absent, on the assumption that those are the constructor's defaults.
- Log messages other than the two warnings, and the text of the `SearchParserError` message. The model keeps the place (page number or feed) and the original cause instead. The feed plugin sets the cause as `__cause__` (`raise … from e`). The listing plugin raises inside its `except` block, so the cause becomes the implicit `__context__`, and it also repeats the cause's repr in the message.
- A user-supplied `timefmt`. Only the default output pattern `%Y/%m/%d %H:%M` is modelled.
- Nyaa.Search: the search is bounded by `fuel`. A search whose pages never include a last page or an abort, such as a server that keeps serving an empty table body not equal to `"\n"`, shows up as `OutOfFuel` rather than as non-termination.
- TimeFormat.ConvertListing, TimeFormat.ConvertFeed, TimeFormat.FormatDefault, TimeFormat.ListingToDefault, TimeFormat.FeedToDefault, NyaaRss.ItemTime, NyaaRss.ItemTimeOfStamp: years below 1000 are written with four digits, since both plugins write through the same default pattern. C libraries differ on `%Y` for such years, and glibc writes them unpadded.
- TimeFormat.ParseClock: digits are ASCII only, while Python's `\d` also matches other Unicode decimal digits. Whitespace follows Python's full `\s` set.
- TimeFormat.ParseFeed: digits are ASCII only, as for `ParseClock`. The weekday and month names are those of the C locale, and only ASCII letters are case-folded; Python's case-insensitive matching also folds some non-ASCII letters onto them.
- TimeFormat.FeedRoundTrip: only numeric zones are written. RFC 822 dates that the feed pattern does not take are rejected by the model as by `strptime`, so such a feed date aborts the search: zone names such as `GMT`, `EST` or military letters other than `Z`, two-digit years, a missing weekday, and missing seconds.
- Nyaa and Aggregator constructors. They only store settings; `NyaaRss.Init` is modelled because of its warning.

=== FILE: aggregator.dfy ===
/** The aggregator. Every registered plugin's `search` runs once with the
    caller's arguments; a plugin that raises an `Exception` counts as having
    returned `[]`. As the futures complete, each truthy result is appended
    to one list, which is returned. The completion order is the scheduler's
    choice: it is the parameter `order`, a permutation of the plugin
    indices, and every property below holds for all of them. */
module Aggregator {
  import opened Types
  import opened Query

  /** A registered plugin's `search`, as a function of the call's
      arguments. Every call is taken to return or raise; a call that never
      ends is not modelled. */
  type Plugin = Args -> PluginOutcome

  /** `run_plugin_search(plugin)`: the plugin's value, or `[]` when it raised
      an `Exception`. */
  function RunPlugin(plugin: Plugin, args: Args): (r: Option<seq<Anime>>)
    ensures plugin(args).Raised? ==> r == Some([])
    ensures plugin(args).Returned? ==> r == plugin(args).value
  {
    match plugin(args)
    case Returned(v) => v
    case Raised(_) => Some([])
  }

  /** What one finished future adds to the list: `if results:
      animes.extend(results)`. `None` and `[]` are falsy. */
  function Contribution(v: Option<seq<Anime>>): (c: seq<Anime>)
    ensures c == Hits(v)
  {
    if v.Some? && |v.value| > 0 then v.value else []
  }

  /** The futures' values, in plugin order; the i-th is plugin i's call with
      the caller's arguments. */
  function Results(plugins: seq<Plugin>, args: Args): (rs: seq<Option<seq<Anime>>>)
    ensures |rs| == |plugins|
    ensures forall i :: 0 <= i < |plugins| ==> rs[i] == RunPlugin(plugins[i], args)
  {
    if plugins == [] then []
    else Results(plugins[..|plugins| - 1], args) + [RunPlugin(plugins[|plugins| - 1], args)]
  }

  /** 0, 1, ..., n - 1. */
  function Indices(n: nat): (s: seq<nat>)
    ensures |s| == n
    ensures forall i :: 0 <= i < n ==> s[i] == i
  {
    if n == 0 then [] else Indices(n - 1) + [n - 1]
  }

  /** `as_completed` yields every future exactly once. */
  predicate IsPermutation(order: seq<nat>, n: nat)
  {
    multiset(order) == multiset(Indices(n))
  }

  predicate InRange(order: seq<nat>, n: nat)
  {
    forall k :: 0 <= k < |order| ==> order[k] < n
  }

  /** The list after the futures `order` completed, in that order. */
  function Collect(results: seq<Option<seq<Anime>>>, order: seq<nat>): seq<Anime>
    requires InRange(order, |results|)
  {
    if order == [] then []
    else Collect(results, order[..|order| - 1]) + Contribution(results[order[|order| - 1]])
  }

  lemma PermutationInRange(order: seq<nat>, n: nat)
    requires IsPermutation(order, n)
    ensures |order| == n
    ensures InRange(order, n)
  {
    assert |order| == |multiset(order)| == |multiset(Indices(n))| == n;
    forall k | 0 <= k < |order| ensures order[k] < n {
      assert order[k] in multiset(order);
      assert order[k] in multiset(Indices(n));
    }
  }

  /** `Aggregator.search(keyword, collected, proxies, system_proxy, **extras)`
      with the futures completing in `order`. */
  function Search(plugins: seq<Plugin>, args: Args, order: seq<nat>): seq<Anime>
    requires IsPermutation(order, |plugins|)
  {
    PermutationInRange(order, |plugins|);
    Collect(Results(plugins, args), order)
  }

  // ---------------------------------------------------------------- the pool

  /** The multisets `bags[order[0]] + bags[order[1]] + ...`. */
  function Pool<T>(bags: seq<multiset<T>>, order: seq<nat>): multiset<T>
    requires InRange(order, |bags|)
  {
    if order == [] then multiset{}
    else Pool(bags, order[..|order| - 1]) + bags[order[|order| - 1]]
  }

  /** Each plugin's records as a multiset, in plugin order. */
  function Bags(results: seq<Option<seq<Anime>>>): (bags: seq<multiset<Anime>>)
    ensures |bags| == |results|
    ensures forall i :: 0 <= i < |results| ==> bags[i] == multiset(Hits(results[i]))
  {
    seq(|results|, i requires 0 <= i < |results| => multiset(Hits(results[i])))
  }

  /** All the records the plugins produced, as a multiset: the union of
      every plugin's result. */
  function Union(results: seq<Option<seq<Anime>>>, n: nat): multiset<Anime>
    requires n <= |results|
  {
    if n == 0 then multiset{} else Union(results, n - 1) + multiset(Hits(results[n - 1]))
  }

  /** The number of records the plugins produced. */
  function Total(results: seq<Option<seq<Anime>>>, n: nat): nat
    requires n <= |results|
  {
    if n == 0 then 0 else Total(results, n - 1) + |Hits(results[n - 1])|
  }

  lemma {:induction false} CollectPool(results: seq<Option<seq<Anime>>>, order: seq<nat>)
    requires InRange(order, |results|)
    ensures multiset(Collect(results, order)) == Pool(Bags(results), order)
    decreases |order|
  {
    if order != [] {
      CollectPool(results, order[..|order| - 1]);
    }
  }

  lemma RemoveInRange(b: seq<nat>, j: nat, n: nat)
    requires InRange(b, n) && j < |b|
    ensures InRange(b[..j] + b[j + 1..], n)
  {
    var c := b[..j] + b[j + 1..];
    forall k | 0 <= k < |c| ensures c[k] < n {
      if k < j { assert c[k] == b[k]; } else { assert c[k] == b[k + 1]; }
    }
  }

  /** Taking one index out of the order takes its bag out of the pool. */
  lemma {:induction false} PoolRemove<T>(bags: seq<multiset<T>>, b: seq<nat>, j: nat)
    requires InRange(b, |bags|) && j < |b|
    ensures InRange(b[..j] + b[j + 1..], |bags|)
    ensures Pool(bags, b) == Pool(bags, b[..j] + b[j + 1..]) + bags[b[j]]
    decreases |b|
  {
    RemoveInRange(b, j, |bags|);
    var c := b[..j] + b[j + 1..];
    if j < |b| - 1 {
      var front := b[..|b| - 1];
      assert InRange(front, |bags|);
      PoolRemove(bags, front, j);
      var c' := front[..j] + front[j + 1..];
      assert c == c' + [b[|b| - 1]];
      assert c[..|c| - 1] == c';
    } else {
      assert c == b[..|b| - 1];
    }
  }

  /** The pool depends only on which indices the order holds, not on their
      order. */
  lemma {:induction false} PoolPermutation<T>(bags: seq<multiset<T>>, a: seq<nat>, b: seq<nat>)
    requires InRange(a, |bags|) && InRange(b, |bags|)
    requires multiset(a) == multiset(b)
    ensures Pool(bags, a) == Pool(bags, b)
    decreases |a|
  {
    if a == [] {
      assert |b| == |multiset(b)| == 0;
    } else {
      var x := a[|a| - 1];
      var a' := a[..|a| - 1];
      assert x in multiset(b) by {
        assert x in multiset(a);
      }
      var j :| 0 <= j < |b| && b[j] == x;
      var b' := b[..j] + b[j + 1..];
      assert b == b[..j] + [x] + b[j + 1..];
      assert a == a' + [x];
      assert multiset(a') == multiset(a) - multiset{x};
      assert multiset(b') == multiset(b) - multiset{x};
      assert InRange(a', |bags|);
      PoolRemove(bags, b, j);
      PoolPermutation(bags, a', b');
    }
  }

  lemma {:induction false} PoolOfIndices(results: seq<Option<seq<Anime>>>, n: nat)
    requires n <= |results|
    ensures InRange(Indices(n), |results|)
    ensures Pool(Bags(results), Indices(n)) == Union(results, n)
    decreases n
  {
    if n > 0 {
      assert Indices(n)[..n - 1] == Indices(n - 1);
      PoolOfIndices(results, n - 1);
    }
  }

  lemma {:induction false} UnionSize(results: seq<Option<seq<Anime>>>, n: nat)
    requires n <= |results|
    ensures |Union(results, n)| == Total(results, n)
    decreases n
  {
    if n > 0 {
      UnionSize(results, n - 1);
    }
  }

  lemma {:induction false} TotalZero(results: seq<Option<seq<Anime>>>, n: nat)
    requires n <= |results|
    ensures Total(results, n) == 0 <==> forall i :: 0 <= i < n ==> Hits(results[i]) == []
    decreases n
  {
    if n > 0 {
      TotalZero(results, n - 1);
    }
  }

  /** Completing `a` and then `b` lists `a`'s records, then `b`'s. */
  lemma {:induction false} CollectAppend(results: seq<Option<seq<Anime>>>, a: seq<nat>, b: seq<nat>)
    requires InRange(a, |results|) && InRange(b, |results|)
    ensures InRange(a + b, |results|)
    ensures Collect(results, a + b) == Collect(results, a) + Collect(results, b)
    decreases |b|
  {
    assert forall k :: 0 <= k < |a + b| ==> (a + b)[k] in a || (a + b)[k] in b;
    if b != [] {
      var front := b[..|b| - 1];
      assert (a + b)[..|a + b| - 1] == a + front;
      CollectAppend(results, a, front);
    } else {
      assert a + b == a;
    }
  }

  // ---------------------------------------------------------------- properties

  /** As a multiset the list is the union of every plugin's result, and its
      length is the sum of their lengths, whatever the completion order. */
  lemma SearchUnion(plugins: seq<Plugin>, args: Args, order: seq<nat>)
    requires IsPermutation(order, |plugins|)
    ensures multiset(Search(plugins, args, order)) == Union(Results(plugins, args), |plugins|)
    ensures |Search(plugins, args, order)| == Total(Results(plugins, args), |plugins|)
  {
    var results := Results(plugins, args);
    var n := |plugins|;
    PermutationInRange(order, n);
    CollectPool(results, order);
    PoolOfIndices(results, n);
    PoolPermutation(Bags(results), order, Indices(n));
    UnionSize(results, n);
  }

  /** The list is empty exactly when no plugin returned a non-empty list. */
  lemma SearchEmpty(plugins: seq<Plugin>, args: Args, order: seq<nat>)
    requires IsPermutation(order, |plugins|)
    ensures Search(plugins, args, order) == [] <==>
      forall i :: 0 <= i < |plugins| ==> Hits(RunPlugin(plugins[i], args)) == []
  {
    SearchUnion(plugins, args, order);
    TotalZero(Results(plugins, args), |plugins|);
  }

  /** The k-th future to complete adds its records as one block, right
      after the blocks of the futures before it. */
  lemma CollectBlock(results: seq<Option<seq<Anime>>>, order: seq<nat>, k: nat)
    requires InRange(order, |results|) && k < |order|
    ensures InRange(order[..k], |results|)
    ensures var r := Collect(results, order);
      var start := |Collect(results, order[..k])|;
      var block := Contribution(results[order[k]]);
      IsBlockAt(r, Collect(results, order[..k]), 0) && IsBlockAt(r, block, start)
  {
    var before, rest := order[..k], order[k + 1..];
    assert InRange(before, |results|);
    assert InRange(rest, |results|) by {
      forall j | 0 <= j < |rest| ensures rest[j] < |results| {
        assert rest[j] == order[k + 1 + j];
      }
    }
    assert order == before + [order[k]] + rest;
    CollectAppend(results, before, [order[k]]);
    CollectAppend(results, before + [order[k]], rest);
    assert Collect(results, [order[k]]) == Contribution(results[order[k]]) by {
      assert [order[k]][..0] == [];
    }
    SliceOfConcat(Collect(results, before), Contribution(results[order[k]]), Collect(results, rest));
  }

  lemma SliceOfConcat<T>(x: seq<T>, y: seq<T>, z: seq<T>)
    ensures (x + y + z)[..|x|] == x
    ensures (x + y + z)[|x|..|x| + |y|] == y
  {
  }

  /** `xs` occurs in `r` as one block starting at `start`. */
  predicate IsBlockAt(r: seq<Anime>, xs: seq<Anime>, start: nat)
  {
    start + |xs| <= |r| && r[start..start + |xs|] == xs
  }

  /** The k-th future to complete adds its plugin's records as one block, in
      their own order, right after the blocks of the futures before it. */
  lemma SearchBlock(plugins: seq<Plugin>, args: Args, order: seq<nat>, k: nat)
    requires IsPermutation(order, |plugins|)
    requires k < |order|
    ensures InRange(order[..k], |plugins|) && order[k] < |plugins|
    ensures var r := Search(plugins, args, order);
      var start := |Collect(Results(plugins, args), order[..k])|;
      var block := Contribution(RunPlugin(plugins[order[k]], args));
      IsBlockAt(r, block, start)
  {
    PermutationInRange(order, |plugins|);
    CollectBlock(Results(plugins, args), order, k);
  }

  /** A plugin that returns a list finds it, intact and in order, as one
      block of the aggregate list. */
  lemma SearchKeeps(plugins: seq<Plugin>, args: Args, order: seq<nat>, i: nat)
    requires IsPermutation(order, |plugins|)
    requires i < |plugins|
    requires plugins[i](args).Returned? && plugins[i](args).value.Some?
    ensures exists start: nat :: IsBlockAt(Search(plugins, args, order), plugins[i](args).value.value, start)
  {
    var xs := plugins[i](args).value.value;
    assert i in multiset(order) by {
      assert Indices(|plugins|)[i] == i;
      assert i in multiset(Indices(|plugins|));
    }
    var k :| 0 <= k < |order| && order[k] == i;
    SearchBlock(plugins, args, order, k);
    var start := |Collect(Results(plugins, args), order[..k])|;
    if xs == [] {
      assert IsBlockAt(Search(plugins, args, order), xs, 0);
    } else {
      assert IsBlockAt(Search(plugins, args, order), xs, start);
    }
  }

  /** An outcome that adds nothing to the list: the plugin raised, or it
      returned `None` or `[]`. */
  predicate Silent(o: PluginOutcome)
  {
    o.Raised? || Hits(o.value) == []
  }

  /** Each plugin is isolated: one that raises, returns `None` or returns
      `[]` leaves exactly the list any other such plugin in its place would
      have left, so in particular a raising plugin is indistinguishable from
      one that returned nothing. */
  lemma SilentIsInterchangeable(plugins: seq<Plugin>, args: Args, order: seq<nat>, i: nat, other: Plugin)
    requires IsPermutation(order, |plugins|)
    requires i < |plugins| && Silent(plugins[i](args))
    requires Silent(other(args))
    ensures IsPermutation(order, |plugins[i := other]|)
    ensures Search(plugins[i := other], args, order) == Search(plugins, args, order)
  {
    var a, b := Results(plugins, args), Results(plugins[i := other], args);
    PermutationInRange(order, |plugins|);
    CollectAlike(a, b, order);
  }

  /** Futures whose values contribute alike give the same list. */
  lemma {:induction false} CollectAlike(a: seq<Option<seq<Anime>>>, b: seq<Option<seq<Anime>>>, order: seq<nat>)
    requires |a| == |b| && InRange(order, |a|)
    requires forall i :: 0 <= i < |a| ==> Hits(a[i]) == Hits(b[i])
    ensures Collect(a, order) == Collect(b, order)
    decreases |order|
  {
    if order != [] {
      CollectAlike(a, b, order[..|order| - 1]);
    }
  }

  // ---------------------------------------------------------------- the method

  /** `Aggregator.search` statement by statement: submit every plugin, then extend
      the list as the futures complete. */
  method SearchAll(plugins: seq<Plugin>, args: Args, order: seq<nat>) returns (animes: seq<Anime>)
    requires IsPermutation(order, |plugins|)
    ensures animes == Search(plugins, args, order)
  {
    PermutationInRange(order, |plugins|);
    var futures: seq<Option<seq<Anime>>> := [];
    var i := 0;
    while i < |plugins|
      invariant 0 <= i <= |plugins|
      invariant futures == Results(plugins[..i], args)
    {
      assert plugins[..i + 1][..i] == plugins[..i];
      futures := futures + [RunPlugin(plugins[i], args)];
      i := i + 1;
    }
    assert plugins[..|plugins|] == plugins;
    animes := [];
    var k := 0;
    while k < |order|
      invariant 0 <= k <= |order|
      invariant animes == Collect(futures, order[..k])
    {
      var results := futures[order[k]];
      if results.Some? && |results.value| > 0 {
        animes := animes + results.value;
      }
      assert order[..k + 1][..k] == order[..k];
      k := k + 1;
    }
    assert order[..|order|] == order;
  }
}

=== FILE: nyaa.dfy ===
/** The paginated scraper. It requests result pages 1, 2, 3, ... of the
    listing with the same parameters except the page key, stops successfully
    at the first page whose table body is missing or holds only the empty
    marker, and turns every row of every other page into an `Anime`. A
    malformed row aborts the whole search with a parser error naming the
    page; an error raised by the fetch itself escapes unchanged.

    The fetch is the function `server` from request to response, with the
    HTML already parsed into rows, cells and anchors. `Nyaa.search`'s loop has
    no bound; `fuel` bounds the number of fetches, and `OutOfFuel` stands for
    a search that would still be running. */
module Nyaa {
  import opened Types
  import opened Query
  import TimeFormat

  const BaseUrl: string := "https://nyaa.si/?"

  /** The text of a table body that holds no rows. */
  const EmptyMarker: string := "\n"

  const PluginName: string := "Nyaa"

  /** The constructor's settings the search uses: whether TLS certificates
      are verified. The output time format is the default one. */
  datatype Config = Config(verify: bool)

  datatype Anchor = Anchor(title: Option<string>, href: Option<string>)

  /** A table cell: its text when it is a single string (`.string`), and its
      anchors in document order. */
  datatype Cell = Cell(text: Option<string>, anchors: seq<Anchor>)

  datatype Row = Row(cells: seq<Cell>)

  /** A parsed result page: no table body at all, or a body with its text
      (when it is a single string) and its rows. */
  datatype Page = NoBody | Body(text: Option<string>, rows: seq<Row>)

  datatype Response = Served(page: Page) | FetchFailed(error: Error)

  type Server = Request -> Response

  /** `not tbody or tbody.string == "\n"`. */
  predicate IsLastPage(p: Page)
  {
    p.NoBody? || p.text == Some(EmptyMarker)
  }

  /** A row the extraction accepts: five cells or more, a listing-pattern
      time in cell 4, an anchor in cell 1 and two anchors in cell 2. */
  predicate WellFormed(row: Row)
  {
    && |row.cells| >= 5
    && row.cells[4].text.Some?
    && TimeFormat.ParseClock(row.cells[4].text.value, '-').Some?
    && |row.cells[1].anchors| >= 1
    && |row.cells[2].anchors| >= 2
  }

  /** One row as an `Anime`, or the exception its extraction raises,
      checked in the order `Nyaa.search` reads them: cell 4, its time,
      cell 1's anchor, cell 2's second anchor. */
  function RowRecord(row: Row): (r: Result<Anime, Cause>)
    ensures r.Success? <==> WellFormed(row)
    ensures r.Success? ==>
      && TimeFormat.ParseClock(r.value.time, '/') == TimeFormat.ParseClock(row.cells[4].text.value, '-')
      && r.value.title == row.cells[1].anchors[0].title
      && r.value.magnet == row.cells[2].anchors[1].href
      && r.value.size == row.cells[3].text
      && r.value.torrent.None? && r.value.hash.None?
    ensures |row.cells| < 5 ==> r == Failure(NoSuchCell(4))
  {
    if |row.cells| < 5 then Failure(NoSuchCell(4))
    else
      var time := TimeFormat.ConvertListing(row.cells[4].text);
      if time.None? then Failure(BadTime(row.cells[4].text))
      else if |row.cells[1].anchors| == 0 then Failure(NoSuchAnchor(1, 0))
      else if |row.cells[2].anchors| < 2 then Failure(NoSuchAnchor(2, 1))
      else
        Success(Anime(time.value, row.cells[1].anchors[0].title, row.cells[3].text,
                      row.cells[2].anchors[1].href, None, None))
  }

  /** What one fetched page does to the search. */
  datatype Step = Stop | Rows(records: seq<Anime>) | Abort(error: Error)

  /** The body of the loop for one response. */
  function Visit(resp: Response, page: nat): (s: Step)
    ensures resp.FetchFailed? ==> s == Abort(resp.error)
    ensures s.Stop? <==> resp.Served? && IsLastPage(resp.page)
  {
    match resp
    case FetchFailed(e) => Abort(e)
    case Served(p) =>
      if IsLastPage(p) then Stop
      else
        match MapAll(p.rows, RowRecord)
        case Success(records) => Rows(records)
        case Failure(c) => Abort(SearchParserError(OnPage(page), c))
  }

  /** A page other than the last yields rows exactly when every row is well
      formed, one record per row in row order; otherwise the error is the
      first malformed row's, wrapped as a parser error naming the page. */
  lemma VisitPage(p: Page, page: nat)
    requires !IsLastPage(p)
    ensures var s := Visit(Served(p), page);
      && (s.Rows? <==> forall i :: 0 <= i < |p.rows| ==> WellFormed(p.rows[i]))
      && (s.Rows? ==>
            && |s.records| == |p.rows|
            && forall i :: 0 <= i < |s.records| ==> RowRecord(p.rows[i]) == Success(s.records[i]))
      && (s.Abort? ==>
            exists i :: 0 <= i < |p.rows|
              && (forall j :: 0 <= j < i ==> WellFormed(p.rows[j]))
              && !WellFormed(p.rows[i])
              && s.error == SearchParserError(OnPage(page), RowRecord(p.rows[i]).error))
  {
  }

  /** A table body with no rows is not a last page unless its text is
      exactly the empty marker: the loop appends nothing and goes on to the
      next page, which is how the search can keep fetching after the results
      run out. */
  lemma EmptyBodyContinues(text: Option<string>, page: nat)
    requires text != Some(EmptyMarker)
    ensures Visit(Served(Body(text, [])), page) == Rows([])
  {
  }

  function PageRequest(base: Params, conn: Conn, page: nat): Request
  {
    Request(BaseUrl, PageParams(base, page), conn)
  }

  datatype Verdict = Done(result: Result<seq<Anime>, Error>) | OutOfFuel

  /** The verdict and how many pages were fetched. */
  datatype Walk = Walk(verdict: Verdict, pages: nat)

  /** A walk preceded by `pages` earlier pages that yielded `records`. */
  function Resume(records: seq<Anime>, pages: nat, w: Walk): Walk
  {
    var verdict :=
      if w.verdict.Done? && w.verdict.result.Success? then Done(Success(records + w.verdict.result.value))
      else w.verdict;
    Walk(verdict, pages + w.pages)
  }

  /** The loop from page `page` on, with at most `fuel` fetches, where
      `steps(k)` is what page `k` does to the search. */
  function Crawl(steps: nat -> Step, page: nat, fuel: nat): (w: Walk)
    ensures w.pages <= fuel
    ensures w.verdict.OutOfFuel? ==> w.pages == fuel
    ensures w.verdict.Done? ==> w.pages >= 1
    decreases fuel
  {
    if fuel == 0 then Walk(OutOfFuel, 0)
    else
      match steps(page)
      case Stop => Walk(Done(Success([])), 1)
      case Abort(e) => Walk(Done(Failure(e)), 1)
      case Rows(records) => Resume(records, 1, Crawl(steps, page + 1, fuel - 1))
  }

  /** The records of pages `from` .. `upto - 1`, page after page. */
  function Harvest(steps: nat -> Step, from: nat, upto: nat): seq<Anime>
    decreases upto - from
  {
    if upto <= from then []
    else
      var s := steps(upto - 1);
      Harvest(steps, from, upto - 1) + (if s.Rows? then s.records else [])
  }

  lemma {:induction false} HarvestFront(steps: nat -> Step, from: nat, upto: nat)
    requires from < upto
    ensures Harvest(steps, from, upto)
         == (if steps(from).Rows? then steps(from).records else []) + Harvest(steps, from + 1, upto)
    decreases upto - from
  {
    if from + 1 < upto {
      HarvestFront(steps, from, upto - 1);
    }
  }

  /** Let page `n` be the first page from `start` on that does not continue
      the loop: a last page, or a page that aborts. A page with a table body
      that holds no rows but whose text is not exactly the empty marker
      continues (see `EmptyBodyContinues`). If page `n` comes within the
      fuel, exactly the pages `start` .. `n` are fetched; a last page ends
      the search with the records of the pages before it, in page-then-row
      order; otherwise the search fails with that page's error, and no
      records survive. */
  lemma {:induction false} CrawlStopsAt(steps: nat -> Step, start: nat, n: nat, fuel: nat)
    requires start <= n < start + fuel
    requires forall k :: start <= k < n ==> steps(k).Rows?
    requires !steps(n).Rows?
    ensures Crawl(steps, start, fuel).pages == n - start + 1
    ensures steps(n).Stop? ==> Crawl(steps, start, fuel).verdict == Done(Success(Harvest(steps, start, n)))
    ensures steps(n).Abort? ==> Crawl(steps, start, fuel).verdict == Done(Failure(steps(n).error))
    decreases n - start
  {
    if start < n {
      CrawlStopsAt(steps, start + 1, n, fuel - 1);
      HarvestFront(steps, start, n);
    }
  }

  /** A finished crawl stopped at the first page that does not continue the
      loop (a last page or an abort); every earlier page continued it. */
  lemma {:induction false} CrawlDone(steps: nat -> Step, start: nat, fuel: nat)
    requires Crawl(steps, start, fuel).verdict.Done?
    ensures var n := start + Crawl(steps, start, fuel).pages - 1;
      && (forall k :: start <= k < n ==> steps(k).Rows?)
      && !steps(n).Rows?
    decreases fuel
  {
    if steps(start).Rows? {
      CrawlDone(steps, start + 1, fuel - 1);
    }
  }

  /** A crawl whose every page within the fuel continues the loop, even with
      no rows, never finishes. */
  lemma {:induction false} CrawlRunsOut(steps: nat -> Step, start: nat, fuel: nat)
    requires forall k :: start <= k < start + fuel ==> steps(k).Rows?
    ensures Crawl(steps, start, fuel).verdict == OutOfFuel
    decreases fuel
  {
    if fuel > 0 {
      CrawlRunsOut(steps, start + 1, fuel - 1);
    }
  }

  // ---------------------------------------------------------------- the search

  /** The requests for pages 1 .. n, in order. */
  function Requests(base: Params, conn: Conn, n: nat): (rs: seq<Request>)
    ensures |rs| == n
  {
    if n == 0 then [] else Requests(base, conn, n - 1) + [PageRequest(base, conn, n)]
  }

  /** The k-th request (counting from 0) asks for page k + 1. */
  lemma {:induction false} RequestsAt(base: Params, conn: Conn, n: nat, k: nat)
    requires k < n
    ensures Requests(base, conn, n)[k] == PageRequest(base, conn, k + 1)
  {
    if k < n - 1 {
      RequestsAt(base, conn, n - 1, k);
    }
  }

  function BaseOf(args: Args): Params
  {
    Build(args.keyword, args.extras)
  }

  function ConnOf(cfg: Config, args: Args): Conn
  {
    Conn(cfg.verify, args.proxies, args.systemProxy)
  }

  /** What fetching page `k` with these parameters does, when `read` is
      the loop body for one response. */
  function StepsWith(read: (Response, nat) -> Step, server: Server, base: Params, conn: Conn): nat -> Step
  {
    (k: nat) => read(server(PageRequest(base, conn, k)), k)
  }

  function PageSteps(server: Server, base: Params, conn: Conn): nat -> Step
  {
    StepsWith(Visit, server, base, conn)
  }

  function Steps(cfg: Config, args: Args, server: Server): nat -> Step
  {
    PageSteps(server, BaseOf(args), ConnOf(cfg, args))
  }

  /** What fetching page `k` of the search does. */
  function StepAt(cfg: Config, args: Args, server: Server, k: nat): Step
  {
    Steps(cfg, args, server)(k)
  }

  /** What the search's caller sees, every request made, and the warnings
      it logged. */
  datatype Run = Run(verdict: Verdict, fetched: seq<Request>, warnings: seq<Warning>)

  /** `Nyaa.search(keyword, collected, proxies, system_proxy, **extras)`. */
  function Search(cfg: Config, args: Args, server: Server, fuel: nat): Run
  {
    var w := Crawl(Steps(cfg, args, server), 1, fuel);
    Run(w.verdict, Requests(BaseOf(args), ConnOf(cfg, args), w.pages),
        if args.collected then [CollectionUnsupported(PluginName)] else [])
  }

  /** The k-th fetch (counting from 1) asks the listing for page k with the
      search's base parameters and transport options; the page key holds
      k even when the caller passed its own `p`. */
  lemma SearchRequests(cfg: Config, args: Args, server: Server, fuel: nat, k: nat)
    requires 1 <= k <= |Search(cfg, args, server, fuel).fetched|
    ensures var req := Search(cfg, args, server, fuel).fetched[k - 1];
      && req.endpoint == BaseUrl
      && req.conn == ConnOf(cfg, args)
      && Lookup(req.params, "p") == Some(Int(k))
      && forall key :: key != "p" ==> Lookup(req.params, key) == Lookup(BaseOf(args), key)
  {
    RequestAt(BaseOf(args), ConnOf(cfg, args), |Search(cfg, args, server, fuel).fetched|, k);
  }

  lemma RequestAt(base: Params, conn: Conn, n: nat, k: nat)
    requires 1 <= k <= n
    ensures var req := Requests(base, conn, n)[k - 1];
      && req.endpoint == BaseUrl
      && req.conn == conn
      && Lookup(req.params, "p") == Some(Int(k))
      && forall key :: key != "p" ==> Lookup(req.params, key) == Lookup(base, key)
  {
    RequestsAt(base, conn, n, k - 1);
    forall key ensures Lookup(PageParams(base, k), key) == if key == "p" then Some(Int(k)) else Lookup(base, key) {
      PageParamsLookup(base, k, key);
    }
  }

  /** If page n is the first page that does not continue the loop (a last
      page or an abort) and the search may fetch n pages, exactly n pages
      are fetched and: a last page gives the records of pages 1 .. n-1 in
      page-then-row order; a malformed row gives a parser error naming page
      n; a failed fetch gives its own error, unchanged. */
  lemma SearchStopsAt(cfg: Config, args: Args, server: Server, fuel: nat, n: nat)
    requires 1 <= n <= fuel
    requires forall k :: 1 <= k < n ==> StepAt(cfg, args, server, k).Rows?
    requires !StepAt(cfg, args, server, n).Rows?
    ensures var r := Search(cfg, args, server, fuel);
      var resp := server(PageRequest(BaseOf(args), ConnOf(cfg, args), n));
      && |r.fetched| == n
      && (resp.Served? && IsLastPage(resp.page) ==>
            r.verdict == Done(Success(Harvest(Steps(cfg, args, server), 1, n))))
      && (resp.FetchFailed? ==> r.verdict == Done(Failure(resp.error)))
      && (resp.Served? && !IsLastPage(resp.page) ==>
            r.verdict.Done? && r.verdict.result.Failure?
            && r.verdict.result.error.SearchParserError?
            && r.verdict.result.error.place == OnPage(n))
  {
    CrawlStopsAt(Steps(cfg, args, server), 1, n, fuel);
  }

  /** A search that returns a list fetched pages 1 .. n, page n was a last
      page, every earlier page was read without error, and the list is their
      records. */
  lemma SearchSucceeded(cfg: Config, args: Args, server: Server, fuel: nat)
    requires Search(cfg, args, server, fuel).verdict.Done?
    requires Search(cfg, args, server, fuel).verdict.result.Success?
    ensures var r := Search(cfg, args, server, fuel);
      var n := |r.fetched|;
      && n >= 1
      && (forall k :: 1 <= k < n ==> StepAt(cfg, args, server, k).Rows?)
      && StepAt(cfg, args, server, n).Stop?
      && r.verdict.result.value == Harvest(Steps(cfg, args, server), 1, n)
  {
    var steps := Steps(cfg, args, server);
    CrawlDone(steps, 1, fuel);
    var n := |Search(cfg, args, server, fuel).fetched|;
    CrawlStopsAt(steps, 1, n, fuel);
  }

  /** A search whose every page within the fuel is read without error and is
      not a last page, even one with no rows, is still running. */
  lemma SearchRunsOut(cfg: Config, args: Args, server: Server, fuel: nat)
    requires forall k :: 1 <= k <= fuel ==> StepAt(cfg, args, server, k).Rows?
    ensures Search(cfg, args, server, fuel).verdict == OutOfFuel
    ensures |Search(cfg, args, server, fuel).fetched| == fuel
  {
    forall k | 1 <= k < 1 + fuel ensures Steps(cfg, args, server)(k).Rows? {
      assert StepAt(cfg, args, server, k).Rows?;
    }
    CrawlRunsOut(Steps(cfg, args, server), 1, fuel);
  }

  /** `collected` only adds a warning: the requests and the verdict are the
      same either way. */
  lemma CollectedOnlyWarns(cfg: Config, args: Args, server: Server, fuel: nat)
    ensures var on := Search(cfg, args.(collected := true), server, fuel);
      var off := Search(cfg, args.(collected := false), server, fuel);
      && on.verdict == off.verdict
      && on.fetched == off.fetched
      && on.warnings == [CollectionUnsupported(PluginName)]
      && off.warnings == []
  {
  }

  // ---------------------------------------------------------------- the loop

  /** `Nyaa.search` statement by statement: the warning, the base
      parameters, then the page loop with `Visit` (see `ReadPage`) as its
      body. */
  method SearchLoop(cfg: Config, args: Args, server: Server, fuel: nat) returns (r: Run)
    ensures r == Search(cfg, args, server, fuel)
  {
    var warnings := if args.collected then [CollectionUnsupported(PluginName)] else [];
    var base := Build(args.keyword, args.extras);
    var conn := Conn(cfg.verify, args.proxies, args.systemProxy);
    var verdict, fetched := PageLoop(Visit, server, base, conn, fuel);
    return Run(verdict, fetched, warnings);
  }

  /** The `while True` loop of `Nyaa.search`, statement by statement: one dict whose
      page key is reassigned before every fetch, records appended page by
      page, and an exception that discards them. */
  method PageLoop(read: (Response, nat) -> Step, server: Server, base: Params, conn: Conn, fuel: nat)
    returns (verdict: Verdict, fetched: seq<Request>)
    ensures var w := Crawl(StepsWith(read, server, base, conn), 1, fuel);
      verdict == w.verdict && fetched == Requests(base, conn, w.pages)
  {
    ghost var steps := StepsWith(read, server, base, conn);
    ghost var whole := Crawl(steps, 1, fuel);
    var animes: seq<Anime> := [];
    fetched := [];
    var params := base;
    var page: nat := 1;
    var left := fuel;
    assert Resume(animes, 0, whole) == whole by {
      if whole.verdict.Done? && whole.verdict.result.Success? {
        assert animes + whole.verdict.result.value == whole.verdict.result.value;
      }
    }
    while left > 0
      invariant page + left == fuel + 1
      invariant page > 1 ==> params == PageParams(base, page - 1)
      invariant page == 1 ==> params == base
      invariant fetched == Requests(base, conn, page - 1)
      invariant Resume(animes, page - 1, Crawl(steps, page, left)) == whole
      decreases left
    {
      NextRequest(base, conn, params, page, fetched);
      params := Set(params, "p", Int(page));
      var req := Request(BaseUrl, params, conn);
      fetched := fetched + [req];
      var step := read(server(req), page);
      CrawlFront(steps, animes, page, left);
      match step {
        case Stop =>
          return Done(Success(animes)), fetched;
        case Abort(e) =>
          return Done(Failure(e)), fetched;
        case Rows(records) =>
          animes := animes + records;
      }
      page := page + 1;
      left := left - 1;
    }
    return OutOfFuel, fetched;
  }

  /** Reassigning the page key in the loop's dict gives the parameters of
      the current page, and its request extends the requests so far. */
  lemma NextRequest(base: Params, conn: Conn, params: Params, page: nat, fetched: seq<Request>)
    requires page >= 1
    requires page > 1 ==> params == PageParams(base, page - 1)
    requires page == 1 ==> params == base
    requires fetched == Requests(base, conn, page - 1)
    ensures Set(params, "p", Int(page)) == PageParams(base, page)
    ensures fetched + [Request(BaseUrl, Set(params, "p", Int(page)), conn)] == Requests(base, conn, page)
  {
    if page > 1 {
      PageOverwrite(base, page - 1, page);
    }
  }

  /** One more turn of the loop, seen from the records gathered so far. */
  lemma CrawlFront(steps: nat -> Step, animes: seq<Anime>, page: nat, left: nat)
    requires page >= 1 && left > 0
    ensures var w := Resume(animes, page - 1, Crawl(steps, page, left));
      match steps(page)
      case Stop => w == Walk(Done(Success(animes)), page)
      case Abort(e) => w == Walk(Done(Failure(e)), page)
      case Rows(records) => w == Resume(animes + records, page, Crawl(steps, page + 1, left - 1))
  {
    match steps(page)
    case Stop =>
      assert animes + [] == animes;
    case Abort(e) =>
    case Rows(records) =>
      var rest := Crawl(steps, page + 1, left - 1);
      if rest.verdict.Done? && rest.verdict.result.Success? {
        assert animes + (records + rest.verdict.result.value) == (animes + records) + rest.verdict.result.value;
      }
  }

  /** One pass of the loop body over a fetched response: a failed fetch
      re-raises, a last page breaks out, and otherwise the rows are converted
      in order. */
  method ReadPage(resp: Response, page: nat) returns (s: Step)
    ensures s == Visit(resp, page)
  {
    if resp.FetchFailed? {
      return Abort(resp.error);
    }
    var html := resp.page;
    if IsLastPage(html) {
      return Stop;
    }
    var rows := MapEach(html.rows, RowRecord);
    match rows {
      case Success(records) => return Rows(records);
      case Failure(c) => return Abort(SearchParserError(OnPage(page), c));
    }
  }
}

=== FILE: nyaa_rss.dfy ===
/** The feed scraper. One request to the listing's RSS feed with the base
    parameters (no page key), then every `<item>` of the feed becomes an
    `Anime`; a feed with no items is reported as `None`, not as an empty
    list. A missing element or a date off the feed pattern aborts the whole
    search with a parser error; an error raised by the fetch escapes
    unchanged. The fetch is the function `server`, with the XML already
    parsed into items. */
module NyaaRss {
  import opened Types
  import opened Query
  import TimeFormat

  const BaseUrl: string := "https://nyaa.si/?page=rss&"

  const PluginName: string := "NyaaRss"

  /** The constructor's arguments: the parser name (kept, never used) and
      whether TLS certificates are verified. */
  datatype Config = Config(parser: Option<string>, verify: bool)

  /** One `<item>`: the text of each child element the search reads, or
      `None` when the element is missing. */
  datatype Item = Item(
    title: Option<string>,
    link: Option<string>,
    pubDate: Option<string>,
    infoHash: Option<string>,
    size: Option<string>)

  datatype Response = Served(items: seq<Item>) | FetchFailed(error: Error)

  type Server = Request -> Response

  /** A run of the search: the returned value or the raised error, every
      request made, and the warnings logged. */
  datatype Run = Run(result: Result<Option<seq<Anime>>, Error>, fetched: seq<Request>, warnings: seq<Warning>)

  /** A Python string is truthy when it is not empty. */
  predicate Truthy(parser: Option<string>)
  {
    parser.Some? && parser.value != ""
  }

  /** `NyaaRss(parser, verify)`: the plugin and the warnings its
      constructor logs. */
  function Init(parser: Option<string>, verify: bool): (r: (Config, seq<Warning>))
    ensures r.0 == Config(parser, verify)
    ensures r.1 == [] || r.1 == [ParserIgnored]
    ensures r.1 == [ParserIgnored] <==> Truthy(parser)
  {
    (Config(parser, verify), if Truthy(parser) then [ParserIgnored] else [])
  }

  /** `item.find(name).text`: the element's text, or the error reading a
      missing element raises. */
  function Find(element: Option<string>, name: string): (r: Result<string, Cause>)
    ensures r.Success? <==> element.Some?
    ensures r.Success? ==> r.value == element.value
    ensures r.Failure? ==> r.error == NoSuchElement(name)
  {
    if element.Some? then Success(element.value) else Failure(NoSuchElement(name))
  }

  /** The pub date reformatted to the default output pattern, or the error
      `strptime` raises. */
  function ItemTime(text: string): (r: Result<string, Cause>)
    ensures r.Success? <==> TimeFormat.ParseFeed(text).Some?
    ensures r.Success? ==> TimeFormat.ParseClock(r.value, '/') == Some(TimeFormat.ParseFeed(text).value.wall)
    ensures r.Failure? ==> r.error == BadTime(Some(text))
  {
    match TimeFormat.ConvertFeed(text)
    case Some(t) => Success(t)
    case None => Failure(BadTime(Some(text)))
  }

  /** An item the extraction accepts: every element present and the pub
      date on the feed pattern. */
  predicate Complete(item: Item)
  {
    && item.title.Some? && item.link.Some? && item.pubDate.Some?
    && TimeFormat.ParseFeed(item.pubDate.value).Some?
    && item.infoHash.Some? && item.size.Some?
  }

  /** One item as an `Anime`, checked in the order `NyaaRss.search` reads
      them: title, link, pub date and its pattern, info hash, size. */
  function ItemRecord(item: Item): (r: Result<Anime, Cause>)
    ensures r.Success? <==> Complete(item)
    ensures r.Success? ==>
      && TimeFormat.ParseClock(r.value.time, '/') == Some(TimeFormat.ParseFeed(item.pubDate.value).value.wall)
      && r.value.title == item.title
      && r.value.size == item.size
      && r.value.magnet == None
      && r.value.torrent == item.link
      && r.value.hash == item.infoHash
    ensures item.title.None? ==> r == Failure(NoSuchElement("title"))
    ensures item.title.Some? && item.link.None? ==> r == Failure(NoSuchElement("link"))
    ensures item.title.Some? && item.link.Some? && item.pubDate.None? ==> r == Failure(NoSuchElement("pubDate"))
    ensures (item.title.Some? && item.link.Some? && item.pubDate.Some?
             && TimeFormat.ParseFeed(item.pubDate.value).None?)
         ==> r == Failure(BadTime(item.pubDate))
    ensures (item.title.Some? && item.link.Some? && item.pubDate.Some?
             && TimeFormat.ParseFeed(item.pubDate.value).Some? && item.infoHash.None?)
         ==> r == Failure(NoSuchElement("nyaa:infoHash"))
    ensures (item.title.Some? && item.link.Some? && item.pubDate.Some?
             && TimeFormat.ParseFeed(item.pubDate.value).Some? && item.infoHash.Some? && item.size.None?)
         ==> r == Failure(NoSuchElement("nyaa:size"))
    ensures r.Failure? && r.error.BadTime? ==>
      && item.title.Some? && item.link.Some? && item.pubDate.Some?
      && r.error.text == item.pubDate
      && TimeFormat.ParseFeed(item.pubDate.value).None?
  {
    var title :- Find(item.title, "title");
    var link :- Find(item.link, "link");
    var from :- Find(item.pubDate, "pubDate");
    var time :- ItemTime(from);
    var hash :- Find(item.infoHash, "nyaa:infoHash");
    var size :- Find(item.size, "nyaa:size");
    Success(Anime(time, Some(title), Some(size), None, Some(link), Some(hash)))
  }

  /** The body of the `try` for a fetched feed. */
  function ReadFeed(items: seq<Item>): Result<Option<seq<Anime>>, Error>
  {
    if items == [] then Success(None)
    else
      match MapAll(items, ItemRecord)
      case Success(records) => Success(Some(records))
      case Failure(c) => Failure(SearchParserError(InFeed, c))
  }

  function ConnOf(cfg: Config, args: Args): Conn
  {
    Conn(cfg.verify, args.proxies, args.systemProxy)
  }

  function FeedRequest(cfg: Config, args: Args): Request
  {
    Request(BaseUrl, Build(args.keyword, args.extras), ConnOf(cfg, args))
  }

  /** `NyaaRss.search(keyword, collected, proxies, system_proxy, **extras)`. */
  function Search(cfg: Config, args: Args, server: Server): Run
  {
    var req := FeedRequest(cfg, args);
    var result :=
      match server(req)
      case FetchFailed(e) => Failure(e)
      case Served(items) => ReadFeed(items);
    Run(result, [req], if args.collected then [CollectionUnsupported(PluginName)] else [])
  }

  // ---------------------------------------------------------------- properties

  /** A feed with no items gives `None`; otherwise one record per item, in
      feed order, when every item is complete, and else the parser error of
      the first incomplete item. */
  lemma ReadFeedOutcome(items: seq<Item>)
    ensures items == [] ==> ReadFeed(items) == Success(None)
    ensures items != [] && (forall i :: 0 <= i < |items| ==> Complete(items[i])) ==>
      && ReadFeed(items).Success?
      && ReadFeed(items).value.Some?
      && |ReadFeed(items).value.value| == |items|
      && forall i :: 0 <= i < |items| ==> ItemRecord(items[i]) == Success(ReadFeed(items).value.value[i])
    ensures ReadFeed(items).Failure? <==> exists i :: 0 <= i < |items| && !Complete(items[i])
    ensures ReadFeed(items).Failure? ==>
      exists i :: 0 <= i < |items|
        && (forall j :: 0 <= j < i ==> Complete(items[j]))
        && !Complete(items[i])
        && ReadFeed(items).error == SearchParserError(InFeed, ItemRecord(items[i]).error)
  {
  }

  /** The search makes exactly one request: the feed endpoint with `q`,
      `c` and the extra options (no page key unless the caller passed
      one), and the plugin's transport options. */
  lemma SearchRequest(cfg: Config, args: Args, server: Server, key: string)
    requires Distinct(Keys(args.extras))
    ensures var r := Search(cfg, args, server);
      && |r.fetched| == 1
      && r.fetched[0].endpoint == BaseUrl
      && r.fetched[0].conn == ConnOf(cfg, args)
      && Lookup(r.fetched[0].params, key)
         == if key in Keys(args.extras) then Lookup(args.extras, key)
            else if key == "q" then Some(Text(args.keyword))
            else if key == "c" then Some(Text(Category))
            else None
  {
    BuildLookup(args.keyword, args.extras, key);
  }

  /** A failed fetch raises its own error; a fetched feed gives what its
      items give. */
  lemma SearchOutcome(cfg: Config, args: Args, server: Server)
    ensures server(FeedRequest(cfg, args)).FetchFailed? ==>
      Search(cfg, args, server).result == Failure(server(FeedRequest(cfg, args)).error)
    ensures server(FeedRequest(cfg, args)).Served? ==>
      Search(cfg, args, server).result == ReadFeed(server(FeedRequest(cfg, args)).items)
  {
  }

  /** A feed item whose pub date is any stamp the feed writes with a
      numeric zone is stored with that stamp's wall clock in the default
      output pattern. */
  lemma ItemTimeOfStamp(item: Item, st: TimeFormat.Stamp)
    requires TimeFormat.Writable(st)
    requires item.pubDate == Some(TimeFormat.FormatFeed(st))
    requires item.title.Some? && item.link.Some? && item.infoHash.Some? && item.size.Some?
    ensures ItemRecord(item).Success?
    ensures ItemRecord(item).value.time == TimeFormat.FormatDefault(st.wall)
  {
    TimeFormat.FeedToDefault(st);
  }

  /** `collected` only adds a warning. */
  lemma CollectedOnlyWarns(cfg: Config, args: Args, server: Server)
    ensures var on := Search(cfg, args.(collected := true), server);
      var off := Search(cfg, args.(collected := false), server);
      && on.result == off.result
      && on.fetched == off.fetched
      && on.warnings == [CollectionUnsupported(PluginName)]
      && off.warnings == []
  {
  }

  /** The parser the plugin was built with changes nothing the search does. */
  lemma ParserIgnoredBySearch(p1: Option<string>, p2: Option<string>, verify: bool, args: Args, server: Server)
    ensures Search(Init(p1, verify).0, args, server) == Search(Init(p2, verify).0, args, server)
  {
  }

  // ---------------------------------------------------------------- the method

  /** `NyaaRss.search` statement by statement: warning, one fetch, then the
      item loop inside the `try`. */
  method SearchFeed(cfg: Config, args: Args, server: Server) returns (r: Run)
    ensures r == Search(cfg, args, server)
  {
    var warnings := if args.collected then [CollectionUnsupported(PluginName)] else [];
    var req := Request(BaseUrl, Build(args.keyword, args.extras), Conn(cfg.verify, args.proxies, args.systemProxy));
    var resp := server(req);
    if resp.FetchFailed? {
      return Run(Failure(resp.error), [req], warnings);
    }
    if resp.items == [] {
      return Run(Success(None), [req], warnings);
    }
    var records := MapEach(resp.items, ItemRecord);
    match records {
      case Success(animes) => return Run(Success(Some(animes)), [req], warnings);
      case Failure(c) => return Run(Failure(SearchParserError(InFeed, c)), [req], warnings);
    }
  }
}

=== FILE: query.dfy ===
/** Query parameters and fetch requests. A Python dict keeps its keys in
    insertion order and `urlencode` writes them in that order, so the
    parameters are modelled as an ordered list of (key, value) pairs with
    distinct keys; assigning to a present key replaces its value in place,
    assigning to a new key appends it. The encoding itself stays opaque. */
module Query {
  import opened Types

  /** The fixed category filter both Nyaa plugins send (`c="1_0"`). */
  const Category: string := "1_0"

  datatype Value = Text(text: string) | Int(number: int)

  type Params = seq<(string, Value)>

  /** The search call's arguments, as every plugin receives them. */
  datatype Args = Args(
    keyword: string,
    collected: bool,
    proxies: Option<map<string, string>>,
    systemProxy: bool,
    extras: Params)

  /** The transport options a plugin hands to the fetch helper. */
  datatype Conn = Conn(verify: bool, proxies: Option<map<string, string>>, systemProxy: bool)

  /** One fetch: the endpoint prefix of the URL, the parameters encoded after
      it, and the transport options. */
  datatype Request = Request(endpoint: string, params: Params, conn: Conn)

  function Keys(ps: Params): (ks: seq<string>)
    ensures |ks| == |ps|
    ensures forall i :: 0 <= i < |ps| ==> ks[i] == ps[i].0
  {
    if ps == [] then [] else [ps[0].0] + Keys(ps[1..])
  }

  predicate Distinct(ks: seq<string>)
  {
    forall i, j :: 0 <= i < j < |ks| ==> ks[i] != ks[j]
  }

  /** `d.get(k)`: the value bound to `k`, if any. */
  function Lookup(ps: Params, k: string): (r: Option<Value>)
    ensures r.Some? <==> k in Keys(ps)
  {
    if ps == [] then None
    else if ps[0].0 == k then Some(ps[0].1)
    else Lookup(ps[1..], k)
  }

  /** `d[k] = v`. */
  function Set(ps: Params, k: string, v: Value): Params
  {
    if ps == [] then [(k, v)]
    else if ps[0].0 == k then [(k, v)] + ps[1..]
    else [ps[0]] + Set(ps[1..], k, v)
  }

  /** Assignment binds `k` to `v`, leaves every other key's value alone,
      keeps a present key in its place and appends a new one. */
  lemma {:induction false} SetSpec(ps: Params, k: string, v: Value)
    ensures Lookup(Set(ps, k, v), k) == Some(v)
    ensures forall k' :: k' != k ==> Lookup(Set(ps, k, v), k') == Lookup(ps, k')
    ensures Keys(Set(ps, k, v)) == if k in Keys(ps) then Keys(ps) else Keys(ps) + [k]
    decreases |ps|
  {
    if ps == [] {
    } else if ps[0].0 == k {
      assert ([(k, v)] + ps[1..])[1..] == ps[1..];
    } else {
      var rest := Set(ps[1..], k, v);
      SetSpec(ps[1..], k, v);
      assert ([ps[0]] + rest)[1..] == rest;
    }
  }

  /** `{**d, **extras}`: assigns the extra pairs one by one, in order. */
  function SetAll(ps: Params, extras: Params): Params
    decreases |extras|
  {
    if extras == [] then ps
    else SetAll(Set(ps, extras[0].0, extras[0].1), extras[1..])
  }

  /** The keys of `ks` not in `seen`, in their order. */
  function Fresh(ks: seq<string>, seen: seq<string>): seq<string>
  {
    if ks == [] then []
    else if ks[0] in seen then Fresh(ks[1..], seen)
    else [ks[0]] + Fresh(ks[1..], seen)
  }

  /** The base parameters both Nyaa plugins send:
      `{'q': keyword, 'c': "1_0", **extra_options}`. */
  function Build(keyword: string, extras: Params): Params
  {
    SetAll([("q", Text(keyword)), ("c", Text(Category))], extras)
  }

  /** The parameters of result page `page`: `params['p'] = page`. */
  function PageParams(base: Params, page: nat): Params
  {
    Set(base, "p", Int(page))
  }

  /** Dropping the first pair keeps the keys distinct and loses its key. */
  lemma DistinctTail(ps: Params)
    requires ps != [] && Distinct(Keys(ps))
    ensures Keys(ps) == [ps[0].0] + Keys(ps[1..])
    ensures Distinct(Keys(ps[1..]))
    ensures ps[0].0 !in Keys(ps[1..])
  {
    var tail := Keys(ps[1..]);
    forall i, j | 0 <= i < j < |tail| ensures tail[i] != tail[j] {
      assert tail[i] == Keys(ps)[i + 1];
      assert tail[j] == Keys(ps)[j + 1];
    }
    forall j | 0 <= j < |tail| ensures tail[j] != ps[0].0 {
      assert tail[j] == Keys(ps)[j + 1];
    }
  }

  lemma {:induction false} SetAllLookup(ps: Params, extras: Params, k: string)
    requires Distinct(Keys(extras))
    ensures Lookup(SetAll(ps, extras), k)
         == if k in Keys(extras) then Lookup(extras, k) else Lookup(ps, k)
    decreases |extras|
  {
    if extras != [] {
      var (k0, v0) := extras[0];
      var tail := extras[1..];
      DistinctTail(extras);
      SetSpec(ps, k0, v0);
      SetAllLookup(Set(ps, k0, v0), tail, k);
    }
  }

  lemma {:induction false} FreshIgnores(ks: seq<string>, seen: seq<string>, x: string)
    requires x !in ks
    ensures Fresh(ks, seen + [x]) == Fresh(ks, seen)
    decreases |ks|
  {
    if ks != [] {
      FreshIgnores(ks[1..], seen, x);
    }
  }

  lemma {:induction false} SetAllKeys(ps: Params, extras: Params)
    requires Distinct(Keys(extras))
    ensures Keys(SetAll(ps, extras)) == Keys(ps) + Fresh(Keys(extras), Keys(ps))
    decreases |extras|
  {
    if extras != [] {
      var k0, v0, tail := extras[0].0, extras[0].1, extras[1..];
      var ps' := Set(ps, k0, v0);
      SetSpec(ps, k0, v0);
      DistinctTail(extras);
      SetAllKeys(ps', tail);
      FreshStep(Keys(ps), k0, Keys(tail));
    }
  }

  lemma FreshStep(seen: seq<string>, k0: string, tail: seq<string>)
    requires k0 !in tail
    ensures (if k0 in seen then seen else seen + [k0]) + Fresh(tail, if k0 in seen then seen else seen + [k0])
         == seen + Fresh([k0] + tail, seen)
  {
    assert ([k0] + tail)[1..] == tail;
    if k0 !in seen {
      FreshIgnores(tail, seen, k0);
    }
  }

  /** The extra options override `q` and `c`, keep every other key they
      bring, and nothing else is present. */
  lemma BuildLookup(keyword: string, extras: Params, k: string)
    requires Distinct(Keys(extras))
    ensures Lookup(Build(keyword, extras), k)
         == if k in Keys(extras) then Lookup(extras, k)
            else if k == "q" then Some(Text(keyword))
            else if k == "c" then Some(Text(Category))
            else None
  {
    SetAllLookup([("q", Text(keyword)), ("c", Text(Category))], extras, k);
  }

  /** The encoded order: `q`, then `c`, then the extra keys other than those
      two, in the order the caller gave them. No key appears twice. */
  lemma BuildKeys(keyword: string, extras: Params)
    requires Distinct(Keys(extras))
    ensures Keys(Build(keyword, extras)) == ["q", "c"] + Fresh(Keys(extras), ["q", "c"])
    ensures Distinct(Keys(Build(keyword, extras)))
  {
    var start: Params := [("q", Text(keyword)), ("c", Text(Category))];
    assert Keys(start) == ["q", "c"];
    SetAllKeys(start, extras);
    SetAllDistinct(start, extras);
  }

  lemma {:induction false} SetAllDistinct(ps: Params, extras: Params)
    requires Distinct(Keys(ps))
    ensures Distinct(Keys(SetAll(ps, extras)))
    decreases |extras|
  {
    if extras != [] {
      var ps' := Set(ps, extras[0].0, extras[0].1);
      SetSpec(ps, extras[0].0, extras[0].1);
      assert Distinct(Keys(ps'));
      SetAllDistinct(ps', extras[1..]);
    }
  }

  /** The page key always holds the current page, whatever the caller passed
      as `p`; every other key is as in the base parameters, in the same order. */
  lemma PageParamsLookup(base: Params, page: nat, k: string)
    ensures Lookup(PageParams(base, page), k) == if k == "p" then Some(Int(page)) else Lookup(base, k)
  {
    SetSpec(base, "p", Int(page));
  }

  /** Reassigning `p` in the same dict on the next page is the same as
      assigning it once in the base parameters. */
  lemma {:induction false} PageOverwrite(base: Params, page: nat, next: nat)
    ensures Set(PageParams(base, page), "p", Int(next)) == PageParams(base, next)
    decreases |base|
  {
    if base != [] && base[0].0 != "p" {
      PageOverwrite(base[1..], page, next);
    }
  }
}

=== FILE: timefmt.dfy ===
/** Timestamp reformatting, for the two fixed patterns the plugins read and
    the default output pattern `%Y/%m/%d %H:%M`.

    Reading follows the C-locale regular expressions of Python's `strptime`:
    `%Y` is exactly four digits; `%m`, `%d`, `%H`, `%M` and `%S` are one or
    two digits whose value lies in the directive's range (`%d` also admits a
    space followed by one digit); `%a` and `%b` are the English three-letter
    names in any letter case; a space in the pattern stands for one or more
    whitespace characters; `%z` is `Z` or a signed offset. The whole text must
    be consumed, and the date must exist (`datetime.date` rejects year 0 and
    days past the end of the month). Writing pads every number with zeros. */
module TimeFormat {
  import opened Types

  datatype DateTime = DateTime(year: nat, month: nat, day: nat, hour: nat, minute: nat)

  /** What a feed date carries: the wall clock, the weekday index (Monday is
      0), the seconds and the UTC offset in seconds. */
  datatype Stamp = Stamp(wall: DateTime, weekday: nat, second: nat, offset: int)

  predicate IsLeapYear(y: nat)
  {
    y % 4 == 0 && (y % 100 != 0 || y % 400 == 0)
  }

  function DaysInMonth(y: nat, m: nat): nat
  {
    if m == 2 then (if IsLeapYear(y) then 29 else 28)
    else if m == 4 || m == 6 || m == 9 || m == 11 then 30
    else 31
  }

  predicate ValidDate(dt: DateTime)
  {
    && 1 <= dt.year <= 9999
    && 1 <= dt.month <= 12
    && 1 <= dt.day <= DaysInMonth(dt.year, dt.month)
    && dt.hour < 24
    && dt.minute < 60
  }

  // ---------------------------------------------------------------- characters

  predicate IsDigit(c: char) { '0' <= c <= '9' }

  function DigitValue(c: char): nat
    requires IsDigit(c)
  {
    c as nat - '0' as nat
  }

  function Digit(n: nat): (c: char)
    requires n < 10
    ensures IsDigit(c) && DigitValue(c) == n
  {
    ('0' as nat + n) as char
  }

  /** The characters `\s` matches in a Python `str` pattern. */
  predicate IsSpace(c: char)
  {
    var n := c as int;
    || 0x09 <= n <= 0x0D || 0x1C <= n <= 0x20 || n == 0x85 || n == 0xA0
    || n == 0x1680 || 0x2000 <= n <= 0x200A || n == 0x2028 || n == 0x2029
    || n == 0x202F || n == 0x205F || n == 0x3000
  }

  function Lower(c: char): char
  {
    if 'A' <= c <= 'Z' then (c as int + 32) as char else c
  }

  function Upper(c: char): char
  {
    if 'a' <= c <= 'z' then (c as int - 32) as char else c
  }

  function LowerAll(s: string): (r: string)
    ensures |r| == |s|
  {
    if s == [] then [] else [Lower(s[0])] + LowerAll(s[1..])
  }

  /** The C locale's abbreviated names, lower-cased as `strptime` keeps them. */
  const WeekdayNames: seq<string> := ["mon", "tue", "wed", "thu", "fri", "sat", "sun"]
  const MonthNames: seq<string> :=
    ["jan", "feb", "mar", "apr", "may", "jun", "jul", "aug", "sep", "oct", "nov", "dec"]

  // ---------------------------------------------------------------- reading

  /** A literal character of the pattern. */
  function Lit(s: string, c: char): Option<string>
  {
    if |s| > 0 && s[0] == c then Some(s[1..]) else None
  }

  function SkipSpaces(s: string): (r: string)
    ensures |r| <= |s|
    ensures r == [] || !IsSpace(r[0])
  {
    if |s| > 0 && IsSpace(s[0]) then SkipSpaces(s[1..]) else s
  }

  /** A space of the pattern: one or more whitespace characters. */
  function Spaces(s: string): Option<string>
  {
    if |s| > 0 && IsSpace(s[0]) then Some(SkipSpaces(s)) else None
  }

  /** `%Y`: exactly four digits. */
  function Year(s: string): Option<(nat, string)>
  {
    if |s| >= 4 && IsDigit(s[0]) && IsDigit(s[1]) && IsDigit(s[2]) && IsDigit(s[3]) then
      Some((1000 * DigitValue(s[0]) + 100 * DigitValue(s[1]) + 10 * DigitValue(s[2]) + DigitValue(s[3]), s[4..]))
    else None
  }

  /** A one- or two-digit number in `lo..hi`. Because every such field is
      followed by a non-digit literal or by the end of the text, the regular
      expression's alternatives (`1[0-2]|0[1-9]|[1-9]` for `%m`, and so on)
      accept exactly the digit runs of length one or two with a value in range. */
  function Field(s: string, lo: nat, hi: nat): (r: Option<(nat, string)>)
    ensures r.Some? ==> lo <= r.value.0 <= hi
  {
    if |s| == 0 || !IsDigit(s[0]) then None
    else if |s| == 1 || !IsDigit(s[1]) then
      var v := DigitValue(s[0]);
      if lo <= v <= hi then Some((v, s[1..])) else None
    else if |s| > 2 && IsDigit(s[2]) then None
    else
      var v := 10 * DigitValue(s[0]) + DigitValue(s[1]);
      if lo <= v <= hi then Some((v, s[2..])) else None
  }

  /** `%d`: a day number, or a space followed by a single digit 1-9. */
  function Day(s: string): (r: Option<(nat, string)>)
    ensures r.Some? ==> 1 <= r.value.0 <= 31
  {
    if |s| > 0 && s[0] == ' ' then
      if |s| > 1 && '1' <= s[1] <= '9' && (|s| == 2 || !IsDigit(s[2])) then
        Some((DigitValue(s[1]), s[2..]))
      else None
    else Field(s, 1, 31)
  }

  /** `%a` or `%b`: the index of the three-letter name `s` starts with. */
  function Name(s: string, names: seq<string>): (r: Option<(nat, string)>)
    ensures r.Some? ==> r.value.0 < |names|
  {
    if |s| < 3 then None else NameFrom(LowerAll(s[..3]), s[3..], names, 0)
  }

  function NameFrom(word: string, rest: string, names: seq<string>, i: nat): (r: Option<(nat, string)>)
    ensures r.Some? ==> i <= r.value.0 < |names| && names[r.value.0] == word && r.value.1 == rest
    decreases |names| - i
  {
    if i >= |names| then None
    else if names[i] == word then Some((i, rest))
    else NameFrom(word, rest, names, i + 1)
  }

  /** Optional fractional seconds of an offset: a dot and one to six digits. */
  predicate Fraction(f: string)
  {
    f == [] || (f[0] == '.' && 2 <= |f| <= 7 && forall i :: 1 <= i < |f| ==> IsDigit(f[i]))
  }

  /** The part of an offset after its hours, in seconds. A colon after the
      hours demands a colon before the seconds, and its absence forbids one. */
  function ZoneRest(t: string, colon: bool): Option<nat>
  {
    if |t| < 2 || !('0' <= t[0] <= '5') || !IsDigit(t[1]) then None
    else
      var minutes := 10 * DigitValue(t[0]) + DigitValue(t[1]);
      var u := t[2..];
      if u == [] then Some(60 * minutes)
      else
        var v :- if colon then Lit(u, ':') else if u[0] == ':' then None else Some(u);
        if |v| >= 2 && '0' <= v[0] <= '5' && IsDigit(v[1]) && Fraction(v[2..]) then
          Some(60 * minutes + 10 * DigitValue(v[0]) + DigitValue(v[1]))
        else None
  }

  /** `%z` at the end of the text: `Z`, or `+HHMM`, `+HH:MM`, optionally with
      seconds and a fraction; the result is the offset in seconds. */
  function Zone(s: string): Option<int>
  {
    if s == "Z" then Some(0)
    else if |s| >= 4 && (s[0] == '+' || s[0] == '-') && IsDigit(s[1]) && IsDigit(s[2]) then
      var hours := 10 * DigitValue(s[1]) + DigitValue(s[2]);
      var colon := s[3] == ':';
      var rest :- ZoneRest(if colon then s[4..] else s[3..], colon);
      var total := 3600 * hours + rest;
      Some(if s[0] == '-' then -total else total)
    else None
  }

  /** `strptime(s, '%Y<sep>%m<sep>%d %H:%M')`: with `-` the listing's
      pattern, with `/` the default output pattern read back. */
  function ParseClock(s: string, sep: char): (r: Option<DateTime>)
    ensures r.Some? ==> ValidDate(r.value)
  {
    var y :- Year(s);
    var r1 :- Lit(y.1, sep);
    var mo :- Field(r1, 1, 12);
    var r2 :- Lit(mo.1, sep);
    var d :- Day(r2);
    var r3 :- Spaces(d.1);
    var h :- Field(r3, 0, 23);
    var r4 :- Lit(h.1, ':');
    var mi :- Field(r4, 0, 59);
    var dt := DateTime(y.0, mo.0, d.0, h.0, mi.0);
    if mi.1 == [] && ValidDate(dt) then Some(dt) else None
  }

  /** `strptime(s, '%a, %d %b %Y %H:%M:%S %z')`, the feed's date pattern.
      The weekday is read but not checked against the date. */
  function ParseFeed(s: string): (r: Option<Stamp>)
    ensures r.Some? ==> ValidDate(r.value.wall) && r.value.weekday < 7 && r.value.second <= 61
  {
    var date :- FeedDate(s, WeekdayNames, MonthNames);
    var (weekday, day, month, year, rest) := date;
    var t :- FeedClock(rest);
    var wall := DateTime(year, month, day, t.0, t.1);
    if ValidDate(wall) then Some(Stamp(wall, weekday, t.2, t.3)) else None
  }

  // The feed pattern is read in small pieces (`FeedDate`, `DayMonthYear`,
  // `MonthYear`, `NameYear`, `FeedClock`) and the name lists are parameters
  // only to keep each round-trip proof small for the verifier; the pattern
  // itself has no such structure, and `ParseFeed` passes the fixed lists.

  /** The feed pattern's head `%a, %d %b %Y `, with the weekday and month
      names given: weekday index, day, month, year and the text after them. */
  function FeedDate(s: string, weekdays: seq<string>, months: seq<string>): (r: Option<(nat, nat, nat, nat, string)>)
    ensures r.Some? ==> r.value.0 < |weekdays| && 1 <= r.value.2 <= |months|
  {
    var w :- Name(s, weekdays);
    var r1 :- Lit(w.1, ',');
    var r2 :- Spaces(r1);
    var dmy :- DayMonthYear(r2, months);
    Some((w.0, dmy.0, dmy.1, dmy.2, dmy.3))
  }

  /** `%d %b %Y `: day, month, year and the text after them. */
  function DayMonthYear(s: string, months: seq<string>): (r: Option<(nat, nat, nat, string)>)
    ensures r.Some? ==> 1 <= r.value.1 <= |months|
  {
    var d :- Day(s);
    var r1 :- Spaces(d.1);
    var my :- MonthYear(r1, months);
    Some((d.0, my.0, my.1, my.2))
  }

  /** `%b %Y `: month, year and the text after them. */
  function MonthYear(s: string, months: seq<string>): (r: Option<(nat, nat, string)>)
    ensures r.Some? ==> 1 <= r.value.0 <= |months|
  {
    var ny :- NameYear(s, months);
    Some((ny.0 + 1, ny.1, ny.2))
  }

  /** A name from `names`, spaces, a year, spaces. */
  function NameYear(s: string, names: seq<string>): (r: Option<(nat, nat, string)>)
    ensures r.Some? ==> r.value.0 < |names|
  {
    var n :- Name(s, names);
    var r1 :- Spaces(n.1);
    var y :- Year(r1);
    var r2 :- Spaces(y.1);
    Some((n.0, y.0, r2))
  }

  /** The feed pattern's tail `%H:%M:%S %z`: hour, minute, second, offset. */
  function FeedClock(s: string): (r: Option<(nat, nat, nat, int)>)
    ensures r.Some? ==> r.value.0 < 24 && r.value.1 < 60 && r.value.2 <= 61
  {
    var h :- Field(s, 0, 23);
    var r1 :- Lit(h.1, ':');
    var mi :- Field(r1, 0, 59);
    var r2 :- Lit(mi.1, ':');
    var sec :- Field(r2, 0, 61);
    var r3 :- Spaces(sec.1);
    var z :- Zone(r3);
    Some((h.0, mi.0, sec.0, z))
  }

  // ---------------------------------------------------------------- writing

  function Pad2(n: nat): (s: string)
    requires n < 100
    ensures |s| == 2 && IsDigit(s[0]) && IsDigit(s[1])
    ensures 10 * DigitValue(s[0]) + DigitValue(s[1]) == n
  {
    [Digit(n / 10), Digit(n % 10)]
  }

  function Pad4(n: nat): (s: string)
    requires n < 10000
    ensures |s| == 4 && IsDigit(s[0]) && IsDigit(s[1]) && IsDigit(s[2]) && IsDigit(s[3])
    ensures 1000 * DigitValue(s[0]) + 100 * DigitValue(s[1]) + 10 * DigitValue(s[2]) + DigitValue(s[3]) == n
  {
    var hi, lo := Pad2(n / 100), Pad2(n % 100);
    assert 100 * (n / 100) + n % 100 == n;
    hi + lo
  }

  /** `strftime('%Y<sep>%m<sep>%d %H:%M', dt)`; with `/` this is the default
      output pattern. */
  function FormatClock(dt: DateTime, sep: char): string
    requires ValidDate(dt)
  {
    Pad4(dt.year) + [sep] + Pad2(dt.month) + [sep] + Pad2(dt.day) + " " + Pad2(dt.hour) + ":" + Pad2(dt.minute)
  }

  /** The default output pattern `%Y/%m/%d %H:%M`. */
  function FormatDefault(dt: DateTime): string
    requires ValidDate(dt)
  {
    FormatClock(dt, '/')
  }

  /** The name as the feed writes it: first letter upper-case. */
  function Capitalize(name: string): string
  {
    if name == [] then [] else [Upper(name[0])] + name[1..]
  }

  /** The stamps a feed writes with a numeric `+HHMM` / `-HHMM` zone: the
      date-time of section 5 of RFC 822 with a four-digit year, as section
      5.2.14 of RFC 1123 amends it, and with weekday and seconds present. */
  predicate Writable(st: Stamp)
  {
    && ValidDate(st.wall)
    && st.weekday < 7
    && st.second <= 61
    && st.offset % 60 == 0
    && -360000 < st.offset < 360000
  }

  function ZoneText(offset: int): string
    requires offset % 60 == 0 && -360000 < offset < 360000
  {
    var minutes := (if offset < 0 then -offset else offset) / 60;
    [if offset < 0 then '-' else '+'] + Pad2(minutes / 60) + Pad2(minutes % 60)
  }

  function FeedClockText(hour: nat, minute: nat, second: nat, offset: int): string
    requires hour < 24 && minute < 60 && second <= 61
    requires offset % 60 == 0 && -360000 < offset < 360000
  {
    Pad2(hour) + ":" + Pad2(minute) + ":" + Pad2(second) + " " + ZoneText(offset)
  }

  function FeedDateText(weekdays: seq<string>, months: seq<string>, weekday: nat, day: nat, month: nat, year: nat): string
    requires weekday < |weekdays| && 1 <= day <= 31 && 1 <= month <= |months| && year < 10000
  {
    Capitalize(weekdays[weekday]) + ", " + DayMonthYearText(months, day, month, year)
  }

  function DayMonthYearText(months: seq<string>, day: nat, month: nat, year: nat): string
    requires 1 <= day <= 31 && 1 <= month <= |months| && year < 10000
  {
    Pad2(day) + " " + MonthYearText(months, month, year)
  }

  function MonthYearText(months: seq<string>, month: nat, year: nat): string
    requires 1 <= month <= |months| && year < 10000
  {
    Capitalize(months[month - 1]) + " " + Pad4(year) + " "
  }

  /** A feed date as the feed writes it, e.g. `Sun, 01 Jan 2023 12:34:56 -0000`. */
  function FormatFeed(st: Stamp): string
    requires Writable(st)
  {
    FeedDateText(WeekdayNames, MonthNames, st.weekday, st.wall.day, st.wall.month, st.wall.year)
      + FeedClockText(st.wall.hour, st.wall.minute, st.second, st.offset)
  }

  // ---------------------------------------------------------------- conversions

  /** The listing's conversion: `strftime(default, strptime(text, '%Y-%m-%d %H:%M'))`.
      No text (a cell without a single string) fails like a mismatch. The
      result reads back, under the output pattern, as the date-time read from
      the input. */
  function ConvertListing(text: Option<string>): (r: Option<string>)
    ensures r.Some? <==> text.Some? && ParseClock(text.value, '-').Some?
    ensures r.Some? ==> ParseClock(r.value, '/') == ParseClock(text.value, '-')
  {
    if text.None? then None
    else
      match ParseClock(text.value, '-')
      case None => None
      case Some(dt) =>
        ClockRoundTrip(dt, '/');
        Some(FormatDefault(dt))
  }

  /** The feed's conversion: `strftime(default, strptime(text, '%a, %d %b %Y %H:%M:%S %z'))`.
      The result carries the wall-clock date, hour and minute as written; the
      offset is read but never applied. */
  function ConvertFeed(text: string): (r: Option<string>)
    ensures r.Some? <==> ParseFeed(text).Some?
    ensures r.Some? ==> ParseClock(r.value, '/') == Some(ParseFeed(text).value.wall)
  {
    match ParseFeed(text)
    case None => None
    case Some(st) =>
      ClockRoundTrip(st.wall, '/');
      Some(FormatDefault(st.wall))
  }

  // ---------------------------------------------------------------- round trips

  lemma FieldOfPad2(n: nat, lo: nat, hi: nat, rest: string)
    requires lo <= n <= hi && n < 100
    requires rest == [] || !IsDigit(rest[0])
    ensures Field(Pad2(n) + rest, lo, hi) == Some((n, rest))
  {
    var s := Pad2(n) + rest;
    assert s[0] == Pad2(n)[0] && s[1] == Pad2(n)[1];
    assert |s| > 2 ==> s[2] == rest[0];
    assert s[2..] == rest;
  }

  lemma YearOfPad4(n: nat, rest: string)
    requires n < 10000
    ensures Year(Pad4(n) + rest) == Some((n, rest))
  {
    var s := Pad4(n) + rest;
    assert s[..4] == Pad4(n);
    assert s[4..] == rest;
  }

  lemma SpacesOfOne(rest: string)
    requires rest == [] || !IsSpace(rest[0])
    ensures Spaces(" " + rest) == Some(rest)
  {
    assert IsSpace(' ');
    assert (" " + rest)[1..] == rest;
    assert SkipSpaces(rest) == rest;
  }

  lemma LitOf(c: char, rest: string)
    ensures Lit([c] + rest, c) == Some(rest)
  {
    assert ([c] + rest)[1..] == rest;
  }

  /** Reading what `FormatClock` wrote gives back the same date-time. */
  lemma ClockRoundTrip(dt: DateTime, sep: char)
    requires ValidDate(dt) && !IsDigit(sep)
    ensures ParseClock(FormatClock(dt, sep), sep) == Some(dt)
  {
    var t4 := Pad2(dt.minute);
    var t3 := Pad2(dt.hour) + (":" + t4);
    var t2 := Pad2(dt.day) + (" " + t3);
    var t1 := Pad2(dt.month) + ([sep] + t2);
    var s := Pad4(dt.year) + ([sep] + t1);
    assert FormatClock(dt, sep) == s;
    YearOfPad4(dt.year, [sep] + t1);
    LitOf(sep, t1);
    FieldOfPad2(dt.month, 1, 12, [sep] + t2);
    LitOf(sep, t2);
    FieldOfPad2(dt.day, 1, 31, " " + t3);
    SpacesOfOne(t3);
    FieldOfPad2(dt.hour, 0, 23, ":" + t4);
    LitOf(':', t4);
    FieldOfPad2(dt.minute, 0, 59, []);
    assert t4 + [] == t4;
  }

  /** The names every `%a` / `%b` list holds: three lower-case letters each,
      no two alike. */
  predicate NameList(names: seq<string>)
  {
    && (forall i :: 0 <= i < |names| ==> |names[i]| == 3 && forall k :: 0 <= k < 3 ==> 'a' <= names[i][k] <= 'z')
    && (forall i, j :: 0 <= i < j < |names| ==> names[i] != names[j])
  }

  lemma WeekdayNamesOk()
    ensures NameList(WeekdayNames)
  {
  }

  lemma MonthNamesOk()
    ensures NameList(MonthNames)
  {
  }

  lemma NameStart(names: seq<string>, i: nat)
    requires NameList(names) && i < |names|
    ensures !IsSpace(Capitalize(names[i])[0])
  {
    var c := names[i][0];
    assert 'a' <= c <= 'z';
  }

  lemma {:induction false} NameFromFinds(word: string, rest: string, names: seq<string>, i: nat, j: nat)
    requires j <= i < |names| && names[i] == word
    requires forall k :: j <= k < i ==> names[k] != word
    ensures NameFrom(word, rest, names, j) == Some((i, rest))
    decreases i - j
  {
    if j < i {
      NameFromFinds(word, rest, names, i, j + 1);
    }
  }

  lemma NameOf(names: seq<string>, i: nat, rest: string)
    requires NameList(names) && i < |names|
    ensures Name(Capitalize(names[i]) + rest, names) == Some((i, rest))
  {
    var n := names[i];
    var s := Capitalize(n) + rest;
    assert s[..3] == Capitalize(n);
    assert s[3..] == rest;
    assert Lower(Upper(n[0])) == n[0];
    assert Lower(n[1]) == n[1] && Lower(n[2]) == n[2];
    assert LowerAll(Capitalize(n)) == n by {
      var c := Capitalize(n);
      assert LowerAll(c) == [Lower(c[0])] + LowerAll(c[1..]);
      assert LowerAll(c[1..]) == [Lower(c[1])] + LowerAll(c[2..]);
      assert LowerAll(c[2..]) == [Lower(c[2])] + LowerAll(c[3..]);
      assert c[3..] == [];
    }
    NameFromFinds(n, rest, names, i, 0);
  }

  lemma ZoneOfText(offset: int)
    requires offset % 60 == 0 && -360000 < offset < 360000
    ensures Zone(ZoneText(offset)) == Some(offset)
  {
    var a := if offset < 0 then -offset else offset;
    var minutes := a / 60;
    var h, m := minutes / 60, minutes % 60;
    assert a == 60 * minutes;
    assert minutes == 60 * h + m;
    ZoneOfDigits(if offset < 0 then '-' else '+', h, m);
  }

  lemma ZoneOfDigits(sign: char, h: nat, m: nat)
    requires sign == '+' || sign == '-'
    requires h < 100 && m < 60
    ensures Zone([sign] + Pad2(h) + Pad2(m))
         == Some(if sign == '-' then -(3600 * h + 60 * m) else 3600 * h + 60 * m)
  {
    var s := [sign] + Pad2(h) + Pad2(m);
    assert s[1..3] == Pad2(h);
    assert s[3..] == Pad2(m);
    assert s[3] != ':';
    assert ZoneRest(s[3..], false) == Some(60 * m);
  }

  lemma FeedClockOf(hour: nat, minute: nat, second: nat, offset: int)
    requires hour < 24 && minute < 60 && second <= 61
    requires offset % 60 == 0 && -360000 < offset < 360000
    ensures FeedClock(FeedClockText(hour, minute, second, offset)) == Some((hour, minute, second, offset))
  {
    var z := ZoneText(offset);
    var t9 := Pad2(second) + (" " + z);
    var t8 := Pad2(minute) + (":" + t9);
    var t7 := Pad2(hour) + (":" + t8);
    assert FeedClockText(hour, minute, second, offset) == t7;
    FieldOfPad2(hour, 0, 23, ":" + t8);
    LitOf(':', t8);
    FieldOfPad2(minute, 0, 59, ":" + t9);
    LitOf(':', t9);
    FieldOfPad2(second, 0, 61, " " + z);
    SpacesOfOne(z);
    ZoneOfText(offset);
  }

  lemma NameYearOf(names: seq<string>, i: nat, year: nat, rest: string)
    requires NameList(names) && i < |names| && year < 10000
    requires rest == [] || !IsSpace(rest[0])
    ensures NameYear(Capitalize(names[i]) + " " + Pad4(year) + " " + rest, names) == Some((i, year, rest))
  {
    var t6 := Pad4(year) + (" " + rest);
    assert Capitalize(names[i]) + " " + Pad4(year) + " " + rest == Capitalize(names[i]) + (" " + t6);
    NameOf(names, i, " " + t6);
    SpacesOfOne(t6);
    YearOfPad4(year, " " + rest);
    SpacesOfOne(rest);
  }

  lemma MonthYearOf(months: seq<string>, month: nat, year: nat, rest: string)
    requires NameList(months) && 1 <= month <= |months| && year < 10000
    requires rest == [] || !IsSpace(rest[0])
    ensures MonthYear(MonthYearText(months, month, year) + rest, months) == Some((month, year, rest))
  {
    NameYearOf(months, month - 1, year, rest);
  }

  lemma DayMonthYearOf(months: seq<string>, day: nat, month: nat, year: nat, rest: string)
    requires NameList(months) && 1 <= day <= 31 && 1 <= month <= |months| && year < 10000
    requires rest == [] || !IsSpace(rest[0])
    ensures DayMonthYear(DayMonthYearText(months, day, month, year) + rest, months) == Some((day, month, year, rest))
  {
    var t5 := MonthYearText(months, month, year) + rest;
    NameStart(months, month - 1);
    assert t5[0] == Capitalize(months[month - 1])[0];
    assert DayMonthYearText(months, day, month, year) + rest == Pad2(day) + (" " + t5);
    DayOfPad2(day, " " + t5);
    SpacesOfOne(t5);
    MonthYearOf(months, month, year, rest);
  }

  lemma DayOfPad2(day: nat, rest: string)
    requires 1 <= day <= 31
    requires rest == [] || !IsDigit(rest[0])
    ensures Day(Pad2(day) + rest) == Some((day, rest))
  {
    assert (Pad2(day) + rest)[0] == Pad2(day)[0];
    FieldOfPad2(day, 1, 31, rest);
  }

  lemma FeedDateOf(weekdays: seq<string>, months: seq<string>, weekday: nat, day: nat, month: nat, year: nat, rest: string)
    requires NameList(weekdays) && NameList(months)
    requires weekday < |weekdays| && 1 <= day <= 31 && 1 <= month <= |months| && year < 10000
    requires rest == [] || !IsSpace(rest[0])
    ensures FeedDate(FeedDateText(weekdays, months, weekday, day, month, year) + rest, weekdays, months)
         == Some((weekday, day, month, year, rest))
  {
    var t4 := DayMonthYearText(months, day, month, year) + rest;
    assert FeedDateText(weekdays, months, weekday, day, month, year) + rest
        == Capitalize(weekdays[weekday]) + ([','] + (" " + t4));
    assert t4[0] == Pad2(day)[0];
    WeekdayHeadOf(weekdays, weekday, t4);
    DayMonthYearOf(months, day, month, year, rest);
  }

  /** The weekday, the comma and the space before the day. */
  lemma WeekdayHeadOf(weekdays: seq<string>, weekday: nat, rest: string)
    requires NameList(weekdays) && weekday < |weekdays|
    requires rest == [] || !IsSpace(rest[0])
    ensures Name(Capitalize(weekdays[weekday]) + ([','] + (" " + rest)), weekdays) == Some((weekday, [','] + (" " + rest)))
    ensures Lit([','] + (" " + rest), ',') == Some(" " + rest)
    ensures Spaces(" " + rest) == Some(rest)
  {
    NameOf(weekdays, weekday, [','] + (" " + rest));
    LitOf(',', " " + rest);
    SpacesOfOne(rest);
  }

  /** Reading what the feed wrote gives back the same stamp. */
  lemma FeedRoundTrip(st: Stamp)
    requires Writable(st)
    ensures ParseFeed(FormatFeed(st)) == Some(st)
  {
    var wall := st.wall;
    var clock := FeedClockText(wall.hour, wall.minute, st.second, st.offset);
    assert clock[0] == Pad2(wall.hour)[0];
    WeekdayNamesOk();
    MonthNamesOk();
    FeedDateOf(WeekdayNames, MonthNames, st.weekday, wall.day, wall.month, wall.year, clock);
    FeedClockOf(wall.hour, wall.minute, st.second, st.offset);
  }

  /** A listing time in canonical form becomes the same date-time under the
      default pattern: `2023-01-05 07:30` becomes `2023/01/05 07:30`. */
  lemma ListingToDefault(dt: DateTime)
    requires ValidDate(dt)
    ensures ConvertListing(Some(FormatClock(dt, '-'))) == Some(FormatDefault(dt))
  {
    ClockRoundTrip(dt, '-');
  }

  /** A feed date becomes its wall-clock date, hour and minute under the
      default pattern, whatever its weekday, seconds and offset. */
  lemma FeedToDefault(st: Stamp)
    requires Writable(st)
    ensures ConvertFeed(FormatFeed(st)) == Some(FormatDefault(st.wall))
  {
    FeedRoundTrip(st);
  }
}

=== FILE: types.dfy ===
/** The vocabulary shared by the search plugins: optional values and results,
    the normalised search hit (`Anime`), the errors a search can end in, the
    warnings it may log, and what one plugin call hands back to the aggregator. */
module Types {

  /** An optional value; `None` plays the part of Python's `None`. */
  datatype Option<+T> = None | Some(value: T) {
    predicate IsFailure() { None? }

    function PropagateFailure<U>(): Option<U>
      requires None?
    {
      None
    }

    function Extract(): T
      requires Some?
    {
      value
    }
  }

  /** Either a value or the exception that replaced it. */
  datatype Result<+T, +E> = Success(value: T) | Failure(error: E) {
    predicate IsFailure() { Failure? }

    function PropagateFailure<U>(): Result<U, E>
      requires Failure?
    {
      Failure(error)
    }

    function Extract(): T
      requires Success?
    {
      value
    }
  }

  /** A normalised search hit, in the field order of the `Anime` constructor:
      release time (already reformatted), title, size, magnet link, torrent
      link and info hash. Every field but the time may be absent. */
  datatype Anime = Anime(
    time: string,
    title: Option<string>,
    size: Option<string>,
    magnet: Option<string>,
    torrent: Option<string>,
    hash: Option<string>)

  /** Where a parser failure happened: on a numbered result page, or in the feed. */
  datatype Place = OnPage(page: nat) | InFeed

  /** The original exception a `SearchParserError` wraps. */
  datatype Cause =
    | NoSuchCell(cell: nat)                   // indexing past the row's cells
    | NoSuchAnchor(cell: nat, anchor: nat)    // the cell has too few anchors
    | BadTime(text: Option<string>)           // strptime got no text, or text off the pattern
    | NoSuchElement(name: string)             // the feed item lacks this child element

  datatype Error =
    | SearchParserError(place: Place, cause: Cause)
    | TransportError(detail: string)          // raised while fetching, outside the plugin's parser
    | OtherError(detail: string)              // any other `Exception` subclass a plugin may raise

  datatype Warning = CollectionUnsupported(plugin: string) | ParserIgnored

  /** What one plugin's `search` call ends in: a returned value (a list, or
      `None`), or a raised `Exception`. A `BaseException` that is not an
      `Exception` (`SystemExit`, `KeyboardInterrupt`) is not modelled. */
  datatype PluginOutcome = Returned(value: Option<seq<Anime>>) | Raised(error: Error)

  /** The records a returned value carries; `None` carries none. */
  function Hits(v: Option<seq<Anime>>): seq<Anime>
  {
    if v.Some? then v.value else []
  }

  /** Applies `f` to every element in order, stopping at the first failure;
      this is the shape of every extraction loop whose exception escapes the
      loop and discards the partial list. */
  function MapAll<A, B(==), E(==)>(xs: seq<A>, f: A -> Result<B, E>): (r: Result<seq<B>, E>)
    ensures r.Success? <==> forall i :: 0 <= i < |xs| ==> f(xs[i]).Success?
    ensures r.Success? ==>
      && |r.value| == |xs|
      && forall i :: 0 <= i < |xs| ==> f(xs[i]) == Success(r.value[i])
    ensures r.Failure? ==>
      exists i :: 0 <= i < |xs| && f(xs[i]) == Failure(r.error)
                  && forall j :: 0 <= j < i ==> f(xs[j]).Success?
  {
    if xs == [] then Success([])
    else
      match f(xs[0])
      case Failure(e) => Failure(e)
      case Success(y) =>
        var rest := MapAll(xs[1..], f);
        if rest.Failure? then
          var i :| 0 <= i < |xs| - 1 && f(xs[1..][i]) == Failure(rest.error)
                   && forall j :: 0 <= j < i ==> f(xs[1..][j]).Success?;
          assert f(xs[i + 1]) == Failure(rest.error);
          assert forall j :: 0 <= j < i + 1 ==> f(xs[j]).Success? by {
            forall j | 0 <= j < i + 1 ensures f(xs[j]).Success? {
              if j > 0 { assert xs[j] == xs[1..][j - 1]; }
            }
          }
          Failure(rest.error)
        else
          assert forall i :: 1 <= i < |xs| ==> xs[i] == xs[1..][i - 1];
          Success([y] + rest.value)
  }

  /** The first failing element is the one whose error `MapAll` reports. */
  lemma MapAllFirstFailure<A, B, E>(xs: seq<A>, f: A -> Result<B, E>, i: nat)
    requires i < |xs| && f(xs[i]).Failure?
    requires forall j :: 0 <= j < i ==> f(xs[j]).Success?
    ensures MapAll(xs, f) == Failure(f(xs[i]).error)
  {
    var r := MapAll(xs, f);
    var i' :| 0 <= i' < |xs| && f(xs[i']) == Failure(r.error)
              && forall j :: 0 <= j < i' ==> f(xs[j]).Success?;
    assert i' == i;
  }

  /** When every element succeeds, `MapAll` gives exactly their values. */
  lemma MapAllEvery<A, B, E>(xs: seq<A>, f: A -> Result<B, E>, ys: seq<B>)
    requires |ys| == |xs|
    requires forall j :: 0 <= j < |xs| ==> f(xs[j]) == Success(ys[j])
    ensures MapAll(xs, f) == Success(ys)
  {
    var r := MapAll(xs, f);
    assert r.value == ys;
  }

  /** `MapAll` as the extraction loops write it: convert and append each
      element in turn; the first failure raises and the list built so far
      is dropped. */
  method MapEach<A, B(==), E(==)>(xs: seq<A>, f: A -> Result<B, E>) returns (r: Result<seq<B>, E>)
    ensures r == MapAll(xs, f)
  {
    var ys: seq<B> := [];
    var i := 0;
    while i < |xs|
      invariant 0 <= i <= |xs|
      invariant |ys| == i
      invariant forall j :: 0 <= j < i ==> f(xs[j]) == Success(ys[j])
    {
      var y := f(xs[i]);
      if y.Failure? {
        MapAllFirstFailure(xs, f, i);
        return Failure(y.error);
      }
      ys := ys + [y.value];
      i := i + 1;
    }
    MapAllEvery(xs, f, ys);
    return Success(ys);
  }
}
